=== FILE: README.md ===
# Purple — a Dafny model of its session, ownership and client-side rules

Purple is a small social site with an Express/Prisma backend and a React client.
This project models the decision logic inside it as pure Dafny functions over
immutable values, and proves what each piece promises.

- **Sessions.** The authentication middleware runs a fixed sequence: access
  cookie, access token verification, refresh cookie, lookup of the stored
  refresh token, then renewal. The admin gate follows the same pattern, and the
  `/auth` endpoints (register, login, token, logout) create and consume each
  user's single refresh-token slot.
  - JSON Web Tokens are an oracle pair `sign`/`verify` (`Tokens.Jwt`), and bcrypt is
    an oracle pair `hash`/`compare` (`Tokens.Bcrypt`); a `compare` that throws is `None`.
  - A missing `ACCESS_TOKEN_SECRET` / `REFRESH_TOKEN_SECRET` is a flag of `Tokens.Env`.
  - Time is an integer `now` in milliseconds, and `tokenExpire` is `Option<int>`.
  - A database failure inside a middleware is a `dbFails` flag.
- **Ownership-scoped mutations.** The store is a `Schema.Db` record of sequences.
  `findFirst`/`findUnique` return the first match, `findMany` with a `where` is a
  filter, and `delete` removes one admitted match (`Seqs.DeleteWhere`).
  - Deletes of posts, comments, topics and communities use the admin-or-owner
    filter (`Http.OwnerGuardFor`).
  - Every handler returns the new store and its reply (`Http.Handled`).
- **Client helpers.** These cover the vote buttons, message grouping, the chat
  side bar, the two user searches, the newest-first feed, image URL
  resolution, the post card, and the navigation bar's user area.

Several handlers put a filter holding `req.id` into a `where` clause on routes
that never run the middleware, so `req.id` is undefined there. The model does not
guess what the ORM does with an undefined filter value. Such calls return `None`
(or `Seqs.Undetermined`), and every other case is fully determined.

Only `/auth/token` checks the stored refresh-token expiry. The authentication
middleware (`backend/middleware/authenticationMiddleware.ts`) never reads
`tokenExpire`: it renews from any stored token that matches the refresh cookie,
and its only refusals are 401s. See
`AuthenticationMiddleware.RenewalIgnoresStoredExpiry` and
`Sessions.ExpiredSlotRefusedByRouteButRenewedByMiddleware`.

## Model

| member | source | states |
|---|---|---|
| Tokens.Sign | backend/middleware/authenticationMiddleware.ts:7-15 | a token exists exactly when the secret is set (otherwise the generator throws), and it is the oracle's signature of the payload under that secret, stamped with the issue time in whole seconds and the lifetime |
| Tokens.Verify | backend/middleware/authenticationMiddleware.ts:33-43 | a payload is only ever obtained with the secret set and is the oracle's verdict |
| AuthenticationMiddleware.Authenticate | backend/middleware/authenticationMiddleware.ts:17-83 | per branch: no access cookie 401 "No access token"; a verified access token `next` with its payload's identity and no cookie; else no refresh cookie 401 "No refresh token", a store failure 401 "Refresh failed", no holder 401 "Invalid refresh token", a holder without the secret 401 "Refresh failed", and a holder with it `next` as that user with a renewed `accessToken` (httpOnly, sameSite none, path "/", 15 min) signed now for the holder's record |
| AuthenticationMiddleware.DropFalsy | backend/middleware/authenticationMiddleware.ts:76-80 | the renewed identity keeps the stored role only when it is a non-empty string |
| AuthenticationMiddleware.MissingAccessCookieConsultsNothing | backend/middleware/authenticationMiddleware.ts:26-31 | without an access cookie the answer is "No access token" whatever the refresh cookie, store, secrets or oracle |
| AuthenticationMiddleware.VerifiedAccessSkipsStore | backend/middleware/authenticationMiddleware.ts:33-43 | a verifying access token gives `next` with the payload's id/name/role, sets no cookie and does not depend on the store |
| AuthenticationMiddleware.RenewalIgnoresStoredExpiry | backend/middleware/authenticationMiddleware.ts:52-80 | two stores differing only in `tokenExpire` give the same outcome |
| AuthenticationMiddleware.RenewedCookieIsAccepted | backend/middleware/authenticationMiddleware.ts:61-80 | under the JWT round-trip law, the renewed cookie is accepted next time on its own, with the same id and name and the same role unless the stored role was empty |
| AdminCheckMiddleware.AdminCheck | backend/middleware/adminCheckMiddleware.ts:11-71 | per branch: no secret means no response; a verified `accesstoken` with a working store gives `next` iff its name is a stored admin, else the 403-as-body; otherwise no `refreshtoken` gives no response, a failing store 401, no holder 403, and a holder `next` iff a stored admin, with an `accesstoken` cookie (24 h, not httpOnly) signed now for a name-only payload |
| AdminCheckMiddleware.TokenRoleIgnored | backend/middleware/adminCheckMiddleware.ts:17-25 | tokens differing only in id and role get the same answer |
| AdminCheckMiddleware.ClaimedAdminRoleRejected | backend/middleware/adminCheckMiddleware.ts:17-32 | a token claiming "admin" for a store with no admin is answered with the 403-as-body reply |
| AdminCheckMiddleware.LoginCookiesNeverReachGate | backend/middleware/adminCheckMiddleware.ts:12-34 | with only the cookies login sets, the gate neither answers nor calls `next` |
| AdminCheckMiddleware.AdminRenewalIgnoresStoredExpiry | backend/middleware/adminCheckMiddleware.ts:14-70 | two stores differing only in `tokenExpire` give the same outcome |
| UserStore.FindByToken | backend/middleware/authenticationMiddleware.ts:53-59 | the first user holding the token, and none iff nobody holds it |
| UserStore.FindByUsername | backend/routes/authentication.ts:149-151 | finds a user with the name, and none iff nobody has it |
| UserStore.LookupsIgnoreExpiry | backend/middleware/adminCheckMiddleware.ts:17-44 | lookups by token and by name find the same row, up to its expiry, in stores differing only in `tokenExpire` |
| UserStore.StoreRefreshSlot | backend/routes/authentication.ts:23-34 | only the named user's token and expiry change; absent user gives no update |
| AuthenticationRoutes.Register | backend/routes/authentication.ts:81-115 | missing fields give 400 with no change; an existing name gives 400 "This username already exists"; otherwise 201 with a fresh id and unused name, the hashed password, role "user", no refresh token or expiry, the placeholders "profile text" and "url to profile image" and no banner, appended to the table |
| AuthenticationRoutes.RegisterKeepsUsernamesUnique | backend/routes/authentication.ts:91-109 | registration keeps usernames unique |
| AuthenticationRoutes.Login | backend/routes/authentication.ts:143-186 | 400, 404 in that order; then by the comparison: a throw 500 "Server error", false 401 "Incorrect password", true 200 exactly when both secrets are set (500 otherwise); success stores the refresh token signed now for the user's record, with expiry now + 1 h, in that user's slot only, sets the `accessToken` (15 min) and `refreshToken` (1 h) cookies signed for the same claims, and the body holds name and role but no token |
| AuthenticationRoutes.RefreshAccess | backend/routes/authentication.ts:190-218 | no cookie 403 "No refresh token"; by the holder lookup: none 403 "Invalid refresh token"; `now` past the expiry (null as 0) 403 "Refresh token expired"; otherwise 200 with an `accessToken` signed now for the holder's record when the secret is set, else 500; no slot changes |
| AuthenticationRoutes.Logout | backend/routes/authentication.ts:221-242 | both cookies are cleared (empty, expired at the epoch), status 200, the store is not an input |
| AuthenticationRoutes.LogoutClearsLoginCookies | backend/routes/authentication.ts:221-242 | after a login, logout clears exactly the two cookies login set, with the same name, path, sameSite and secure flag |
| Sessions.LoginThenRefresh | backend/routes/authentication.ts:143-218 | within the hour after login, `/auth/token` with the login's refresh cookie answers 200 with an access cookie signed for the same claims as the login's access cookie, at the refresh time |
| Sessions.LoginFillsSlot | backend/routes/authentication.ts:156-175 | after login one row holds the new refresh token with expiry now + 1 h, the others are unchanged, and the access cookie is signed for that row |
| Sessions.RefreshFromSoleHolder | backend/routes/authentication.ts:190-213 | a token held by exactly one user, before its expiry, buys an access cookie signed for that user |
| Sessions.LoginOverwritesSlot | backend/routes/authentication.ts:23-34 | after login the user's previous refresh token no longer finds them |
| Sessions.ExpiredSlotRefusedByRouteButRenewedByMiddleware | backend/routes/authentication.ts:198-200 | past the expiry `/auth/token` answers 403 while the middleware still renews from the same cookie |
| Sessions.NullExpiryNeverRenewsOnRoute | backend/routes/authentication.ts:198-200 | a slot without expiry never renews on `/auth/token` after time 0 |
| Sessions.LoadTimeSecretsSplitLoginFromRenewal | backend/index.ts:30-43 | with the secrets read into the `/auth` routes before `.env` is loaded, login answers 500 "Server error" while the middleware, reading the environment per call, still renews |
| UsersRoutes.GetUsers | backend/routes/users.ts:196-218 | with a truthy name: that user or 404 "User not found"; otherwise all users |
| UsersRoutes.UpdateCurrentUser | backend/routes/users.ts:302-374 | unknown name 400 "Cannot find user"; for a found user the update happens iff no supplied current password compares false (else 400); the first row with the name then keeps its id, name, role and token slot, gets a new hash only for a truthy new password, and each profile field becomes the sent value or stays |
| UsersRoutes.UpdatedCurrentUserIsListed | backend/routes/users.ts:302-374 | with unique names and ids, after the update `GET /users?username=` returns the updated user |
| UsersRoutes.PasswordChangesWithoutCheck | backend/routes/users.ts:315-349 | without a current password the password is replaced by the hash of the new one |
| UsersRoutes.ThrowingCompareStillUpdates | backend/routes/users.ts:316-326 | a throwing comparison still lets the update through |
| UsersRoutes.UpdateProfile | backend/routes/users.ts:376-411 | no authentication; missing user 404; otherwise 200 and the first row with the path id keeps every field except profile text, image and banner, each of which becomes the sent value or stays |
| UsersRoutes.UpdatedProfileIsListed | backend/routes/users.ts:376-411 | with unique names, after a profile update `GET /users?username=` returns the updated user |
| UsersRoutes.RegisteredUserIsListed | backend/routes/users.ts:196-218 | after registration `GET /users?username=` returns the new user |
| UsersRoutes.RemoveCurrentUser | backend/routes/users.ts:413-426 | exactly the user with the authenticated name is removed, else 404 |
| UsersRoutes.RemovedUserNotListed | backend/routes/users.ts:413-426 | with unique names, after removal `GET /users?username=` answers 404 |
| UsersRoutes.DeleteUserById | backend/routes/users.ts:429-442 | undetermined without a key; otherwise 404 exactly when no user has the key, else the user whose id is the key is removed |
| UsersRoutes.DeletedUserIsGone | backend/routes/users.ts:429-442 | with unique ids, after a delete no user has the key, and the full listing no longer holds the deleted row |
| UsersRoutes.NonAdminDeleteIgnoresPath | backend/routes/users.ts:429-436 | for a non-admin every path id gives the same result |
| UsersRoutes.UnauthenticatedDeleteHasNoKey | backend/routes/users.ts:429-436 | the route as mounted never has a key |
| PostsRoutes.CreatePost | backend/routes/posts.ts:187-223 | validation 400, missing topic 400 "topic_id is required"; otherwise 200 exactly when `req.id` is defined and both the user and the topic it connects exist (500 "Internal server error" otherwise); the post has the author `req.id`, the body's fields, votes 0 and creation time now, and is appended with a fresh id |
| PostsRoutes.CreateIgnoresBodyUserId | backend/routes/posts.ts:200-215 | the body's `user_id` has no effect |
| PostsRoutes.CreatedPostIsFetched | backend/routes/posts.ts:187-223 | a created post is what `GET /posts/:id` returns for its new id |
| PostsRoutes.GetPost | backend/routes/posts.ts:130-146 | the first post with the id, or 404 "Post not found" iff none |
| PostsRoutes.UpdatePost | backend/routes/posts.ts:269-291 | no authentication and no 400 outcome; 404 "Post not found" iff no post has the id; otherwise the first such post is replaced in place: title, content, topic and image become the sent value or stay, author, votes and creation time are kept |
| PostsRoutes.UpdatedPostIsFetched | backend/routes/posts.ts:269-291 | after an update `GET /posts/:id` returns the updated post |
| PostsRoutes.SetVotes | backend/routes/posts.ts:327-344 | the counters become exactly the values sent; only that post changes; 404 if absent |
| PostsRoutes.SetVotesIdempotent | backend/routes/posts.ts:327-338 | sending the same counters twice equals sending them once |
| PostsRoutes.DeletePost | backend/routes/posts.ts:369-394 | the post's comments are gone in every determined outcome; the post is removed only for an admin or its author, else 404 |
| PostsRoutes.RefusedDeleteStillDropsComments | backend/routes/posts.ts:374-392 | a refused delete answers 404, keeps the post and still drops its comments |
| CommentsRoutes.CreateComment | backend/routes/comments.ts:68-84 | 201 iff `req.id` and a post id are defined; the author is `req.id`; else 500 with no change |
| CommentsRoutes.CreateIgnoresBodyUserId | backend/routes/comments.ts:68-79 | the body's `user_id` has no effect |
| CommentsRoutes.ListComments | backend/routes/comments.ts:102-190 | all comments, or exactly those of the user or post, in stored order |
| CommentsRoutes.CreatedCommentIsListed | backend/routes/comments.ts:68-190 | a created comment is appended to every listing whose scope it is in (all, its post, its author) and to no other |
| CommentsRoutes.DeleteComment | backend/routes/comments.ts:219-233 | removes the comment only for an admin or its author; every failure is 500 |
| CommentsRoutes.DeletedCommentIsGone | backend/routes/comments.ts:219-233 | with unique ids, a deleted comment is in neither the table nor any listing |
| TopicsRoutes.ListTopics | backend/routes/topics.ts:69-111 | all topics without a title, else exactly the exact-title matches in order |
| TopicsRoutes.OwnerOf | backend/routes/topics.ts:73-81 | the attached owner is a stored user with the topic's owner id, and none iff the topic has no owner or no user has that id |
| TopicsRoutes.PostsOf | backend/routes/topics.ts:73-81 | exactly the topic's posts are attached, each with a stored author row of its `user_id`, and with none only when no user has that id |
| TopicsRoutes.ListTopicsResponse | backend/routes/topics.ts:69-111 | one entry per listed topic, in order, each carrying that topic's owner row and its posts with their author rows |
| TopicsRoutes.ListingSendsOwnerSecrets | backend/routes/topics.ts:69-111 | with unique ids, the unauthenticated listing sends every listed topic's owner row whole, password hash and refresh token included |
| TopicsRoutes.ListingSendsAuthorSecrets | backend/routes/topics.ts:69-111 | with unique ids, every post of a listed topic is sent with its author's whole row, password hash and refresh token included |
| TopicsRoutes.GetTopic | backend/routes/topics.ts:136-150 | the first topic with the id, or 404 "Topic not found" iff none |
| TopicsRoutes.CreateTopic | backend/routes/topics.ts:174-195 | validation 400 with no change; otherwise 200 exactly when `req.id` is defined (500 "Internal server error" otherwise), with owner `req.id`, the body's title, the uploaded image name, a falsy description replaced by the fixed placeholder, appended with a fresh id |
| TopicsRoutes.CreatedTopicIsFetched | backend/routes/topics.ts:174-195 | a created topic is what `GET /topics/:id` returns for its new id |
| TopicsRoutes.CreatedTopicIsListed | backend/routes/topics.ts:69-111 | a created topic is appended to exactly the listings whose title filter it passes |
| TopicsRoutes.UpdateTopic | backend/routes/topics.ts:226-242 | the title comes from `name`; 404 iff no such topic |
| TopicsRoutes.UpdatedTopicIsFetched | backend/routes/topics.ts:226-242 | after a rename `GET /topics/:id` returns the renamed topic |
| TopicsRoutes.DeleteTopic | backend/routes/topics.ts:267-280 | 404 "Topic not found" exactly when no topic with the id is admitted (admin, or owned by `req.id`); otherwise one admitted topic with the id is removed |
| TopicsRoutes.DeletedTopicIsGone | backend/routes/topics.ts:267-280 | with unique ids, a deleted topic answers 404 on `GET /topics/:id` |
| TopicsRoutes.DeleteWithoutMiddlewareUndetermined | backend/routes/topics.ts:267-273 | as mounted, the owner filter is always undefined |
| CommunitiesRoutes.GetCommunity | backend/routes/communities.ts:90-118 | the first community with the id, or 404 "Community not found" iff none |
| CommunitiesRoutes.CreateCommunity | backend/routes/communities.ts:168-188 | validation 400; otherwise 200 with the name from `title`, no owner, the uploaded image name and the default description for a falsy one, appended with a fresh id |
| CommunitiesRoutes.CreatedCommunityIsFetched | backend/routes/communities.ts:168-188 | a created community is what `GET /communities/:id` returns for its new id |
| CommunitiesRoutes.UpdateCommunity | backend/routes/communities.ts:219-235 | the name comes from `name`; 404 "Topic not found" iff none |
| CommunitiesRoutes.UpdatedCommunityIsFetched | backend/routes/communities.ts:219-235 | after a rename `GET /communities/:id` returns the renamed community |
| CommunitiesRoutes.DeleteCommunity | backend/routes/communities.ts:260-273 | 404 "Community not found" exactly when no community with the id is admitted (admin, or owned by `req.id`); otherwise one admitted community with the id is removed |
| CommunitiesRoutes.DeletedCommunityIsGone | backend/routes/communities.ts:260-273 | with unique ids, a deleted community answers 404 on `GET /communities/:id` |
| CommunitiesRoutes.CreatedCommunityOnlyAdminDeletes | backend/routes/communities.ts:176-182 | a community made by the route is refused to every non-admin |
| ChatsRoutes.CreateChat | backend/routes/chats.js:73-103 | self-chat 400; an existing chat for the pair in either order 400; else 201 appending the pair in the given order |
| ChatsRoutes.CreatePreservesWellFormed | backend/routes/chats.js:77-96 | one create keeps "no self-chat, one chat per unordered pair" |
| ChatsRoutes.CreateAllWellFormed | backend/routes/chats.js:77-96 | any sequence of creates keeps it |
| ChatsRoutes.ListChatsIgnoresQuery | backend/routes/chats.js:120-129 | the listing is the whole table and does not depend on the query |
| ChatsRoutes.CreatedChatIsListed | backend/routes/chats.js:73-129 | a created chat is listed last, whatever the query |
| ChatsRoutes.DeleteChat | backend/routes/chats.js:153-174 | every message of the chat is removed first; the chat is removed or 404 "Chat not found" |
| ChatsRoutes.DeletePreservesWellFormed | backend/routes/chats.js:153-174 | a delete keeps "no self-chat, one chat per unordered pair" |
| FollowsRoutes.CreateFollow | backend/routes/follows.js:73-92 | 400 iff following oneself; otherwise 201 appending the follow |
| FollowsRoutes.RepeatedFollowDuplicates | backend/routes/follows.js:80-86 | the same follow twice leaves two rows |
| FollowsRoutes.Followers | backend/routes/follows.js:187-201 | exactly the follows pointing at the user, in order |
| FollowsRoutes.Following | backend/routes/follows.js:227-241 | exactly the follows the user made, in order |
| FollowsRoutes.CreatedFollowIsListed | backend/routes/follows.js:73-92 | a new follow is appended to its followed user's followers and its follower's following, and to no other listing |
| FollowsRoutes.FollowersFollowingDual | backend/routes/follows.js:187-241 | a follow from a to b is among b's followers iff among a's following iff in the table |
| FollowsRoutes.DeleteFollow | backend/routes/follows.js:118-135 | removes the follow with the id, else 500 "Unable to delete follow" |
| FollowsRoutes.DeletedFollowShrinksListings | backend/routes/follows.js:118-135 | a delete shortens the followed user's followers and the follower's following by exactly one |
| Voting.Initial | frontend/src/components/votingButtons/votingButtons.tsx:12-19 | the fresh state is consistent and shows props' up minus down |
| Voting.ToggleUp | frontend/src/components/votingButtons/votingButtons.tsx:34-42 | flips the up flag, moves the score by one in that direction, sends the new pair |
| Voting.ToggleDown | frontend/src/components/votingButtons/votingButtons.tsx:45-53 | the mirror image for the down flag |
| Voting.Press | frontend/src/components/votingButtons/votingButtons.tsx:58-66 | a click has an effect iff its button is enabled |
| Voting.RunConsistent | frontend/src/components/votingButtons/votingButtons.tsx:12-53 | any click series keeps each counter equal to its prop plus its flag and never both flags set |
| Voting.RunScoreWithinOne | frontend/src/components/votingButtons/votingButtons.tsx:16-19 | the score stays within one of the initial score |
| Voting.ToggleTwiceRestores | frontend/src/components/votingButtons/votingButtons.tsx:36-40 | the same toggle twice restores flag and counter |
| Voting.ClickSyncsStore | frontend/src/components/votingButtons/votingButtons.tsx:23-41 | after the request, the stored counters equal the displayed ones |
| Voting.ConcurrentUpVotesLoseOne | backend/routes/posts.ts:327-338 | two viewers up-voting from the same counts store one vote, not two |
| MessagesView.RenderAt | frontend/src/components/messages/Messages.tsx:56-69 | hidden iff no user has the sender id, else the first such user; outgoing iff sent by the viewer; header iff first or the previous index has another sender |
| MessagesView.Render | frontend/src/components/messages/Messages.tsx:56-69 | one row per message in order |
| MessagesView.HeaderAfterHiddenMessage | frontend/src/components/messages/Messages.tsx:56-64 | after a hidden message the sender's header repeats |
| MessagesView.OneHeaderPerRun | frontend/src/components/messages/Messages.tsx:62-64 | in a run from one sender only the first starts a group |
| ChatLeftBar.FilteredChats | frontend/src/components/chatLeftBar/ChatLeftBar.tsx:47-47 | exactly the chats involving the viewer |
| ChatLeftBar.ChatUsers | frontend/src/components/chatLeftBar/ChatLeftBar.tsx:49-49 | exactly the users in one of those chats, in fetched order |
| ChatLeftBar.ListedIffPartner | frontend/src/components/chatLeftBar/ChatLeftBar.tsx:47-59 | a user is listed iff not the viewer and some chat joins the two |
| ChatLeftBar.ListedKeepsOrder | frontend/src/components/chatLeftBar/ChatLeftBar.tsx:49-58 | the list is a subsequence of the fetched users |
| UserSearch.Search | frontend/src/components/userSearch/UserSearch.tsx:33-35 | exactly the users whose lower-cased name contains the lower-cased query, in order |
| UserSearch.Results | frontend/src/components/userSearch/UserSearch.tsx:46-52 | the list renders iff the query is non-empty |
| UserSearch.EmptyQueryMatchesAll | frontend/src/components/userSearch/UserSearch.tsx:33-46 | the empty query would match everyone |
| UserSearch.SearchIgnoresQueryCase | frontend/src/components/chatUserSearch/ChatUserSearch.tsx:30-32 | lower-casing the query first changes nothing |
| UserSearch.HandleUserClick | frontend/src/components/chatUserSearch/ChatUserSearch.tsx:34-38 | the clicked user is handed on and matches the new query |
| UserSearch.ClickedUserStaysListed | frontend/src/components/chatUserSearch/ChatUserSearch.tsx:30-48 | after a click the clicked user is among the shown results |
| SortedPosts.Sort | frontend/src/components/sortedPosts/SortedPosts.tsx:19-21 | a newest-first permutation of the input |
| SortedPosts.SortKeepsSorted | frontend/src/components/sortedPosts/SortedPosts.tsx:19-21 | an already newest-first input comes back unchanged |
| SortedPosts.NewestComesFirst | frontend/src/components/sortedPosts/SortedPosts.tsx:19-21 | the first post is at least as new as every input post |
| SortedPosts.SortedFeedSameCards | frontend/src/components/sortedPosts/SortedPosts.tsx:19-23 | the sorted feed shows the placeholder iff the input is empty, with one card per post |
| PostsList.Render | frontend/src/components/posts/Posts.tsx:32-51 | "No posts available" iff absent or empty; otherwise one card per post in order |
| ImageUrls.ListImageUrl | frontend/src/components/posts/Posts.tsx:23-29 | falsy gives ""; http(s) unchanged; else under the base |
| ImageUrls.ListImageUrlIdempotent | frontend/src/components/posts/Posts.tsx:23-29 | with an http(s) base a resolved URL resolves to itself |
| ImageUrls.CardImageUrl | frontend/src/components/post/Post.tsx:71-79 | the list's rule on the hard-coded "http://localhost:3001" |
| ImageUrls.ProfileImageUrl | frontend/src/components/navbar/NavBar.tsx:52-58 | falsy gives "/def-av.jpg"; http(s) unchanged; else under the base with one leading slash removed |
| ImageUrls.StripOneSlash | frontend/src/components/navbar/NavBar.tsx:57-57 | at most one leading slash is removed |
| ImageUrls.ProfileSlashNormalised | frontend/src/components/navbar/NavBar.tsx:57-57 | "x" and "/x" resolve alike; "//x" keeps one slash |
| PostView.CommentCount | frontend/src/components/post/Post.tsx:93-96 | zero iff no loaded comment is for the post |
| PostView.CountMatchesPostListing | frontend/src/components/post/Post.tsx:93-96 | the count equals the backend's per-post listing length |
| PostView.AddComment | frontend/src/components/post/Post.tsx:65-67 | the new comment goes in front of the old list |
| PostView.AddCommentCount | frontend/src/components/post/Post.tsx:65-96 | the count rises by one iff the new comment is for the post |
| PostView.CommentToggle | frontend/src/components/post/Post.tsx:145-154 | clickable iff the count is positive; "No comments" iff zero; else Show/Hide with the count |
| PostView.AddedCommentOpensToggle | frontend/src/components/post/Post.tsx:65-154 | after adding a comment for the post, its toggle is clickable and counts one more |
| PostView.DeleteButtonMirrorsBackend | frontend/src/components/post/Post.tsx:155-157 | with unique names and ids, the button shows iff the backend filter admits the delete |
| PostView.DeletePostClick | frontend/src/components/post/Post.tsx:98-108 | the handler sends no delete request and refreshes the list |
| PostView.DeleteClickLeavesStore | frontend/src/components/post/Post.tsx:98-108 | whoever clicks delete, the backend store is unchanged |
| PostView.SentRequestWouldDelete | frontend/src/components/post/Post.tsx:98-108 | had the request been sent, an admin's click would have removed the post |
| NavBar.Area | frontend/src/components/navbar/NavBar.tsx:107-128 | rendered iff there is a current user; avatar by the profile rule, name from the context |
| NavBar.OnAvatarError | frontend/src/components/navbar/NavBar.tsx:115-121 | the avatar falls back to "/def-av.jpg" |
| NavBar.MissingAndBrokenAvatarAgree | frontend/src/components/navbar/NavBar.tsx:52-121 | no image and a broken image show the same avatar |

## Left out

- JWT signing and verification, and bcrypt hashing and comparison, are library calls. They are oracles (`sign` receives the payload, secret, issue time in whole seconds and lifetime, so tokens signed at different seconds may differ), and no cryptographic property is assumed except the round trip stated as a precondition of `AuthenticationMiddleware.RenewedCookieIsAccepted`.
- Database faults other than the middlewares' `dbFails` flag are not modelled, for example a crash mid-handler turning into a 500. The generic "Server error" / "Internal server error" catch branches are therefore not modelled, except where a modelled condition reaches them.
- The schema's foreign-key and unique constraints are not part of this model (`backend/prisma/schema.prisma` is not part of this model); only the `connect` of `PostsRoutes.CreatePost` checks that the user and topic exist. Consequences:
  - a post delete with comments is not refused by a foreign key;
  - `PostsRoutes.UpdatePost` accepts any `topic_id` (a missing topic would make the ORM throw and answer 404), and `CommentsRoutes.CreateComment` accepts any `post_id` (a missing post would answer 500);
  - auto-increment keys are modelled as one more than the largest key in the table, so keys are never reused only up to that choice.
- How the ORM reads an undefined value inside a `where` is not modelled. Such deletes are `None`/`Undetermined`, which covers every delete on the unauthenticated topic, community and user routes.
- `Number(req.id)` for an undefined `req.id` is NaN. `TopicsRoutes.CreateTopic` models the integer column refusing it as the 500 branch.
- `Date` parsing, time zones and NaN timestamps are not modelled: `created_at`, `now` and `tokenExpire` are integer milliseconds, and "now + 1 h" is `now + 3600000`.
- Path parameters are taken as already parsed integers. `parseInt` yielding NaN is not modelled.
- `PostsRoutes.UpdatePost`: `topicId` is an already-typed integer. The route is mounted behind the multipart upload, so a form that sends `topic_id` delivers it as a string, which the ORM refuses for the integer column; the source then answers 404 "Post not found" for a post that exists, where the model answers 200.
- `CommunitiesRoutes.GetCommunity`: returns the bare row. The `include` of the community's topics, their posts and each author's username is not modelled; no secret field is sent there.
- `TopicsRoutes.ListTopics`: selects the rows only; the `owner` and `posts.user` includes the listing sends are modelled separately by `TopicsRoutes.ListTopicsResponse`, and they send whole user rows, password hash and refresh token included.
- JSON values in request bodies are typed: `user1_id === user2_id` and `follower_id === followed_user_id` compare integers, so a string `"1"` against a number `1` is not modelled.
- A body with one of the two chat ids missing, which would make the create fail with 500, is not modelled.
- Cookies are a name-to-value map. Transport, `Secure`/`SameSite` enforcement and expiry by the browser are not modelled.
- The `/auth` routes read the two secrets into constants when the module loads, and `backend/index.ts` imports the routers before calling `dotenv.config()`; the middlewares read the environment on every call. So the routes and the middlewares take separate `Tokens.Env` values; which one a running server has depends on how it is started, which is not modelled. `Sessions.LoadTimeSecretsSplitLoginFromRenewal` shows the split.
- The request validators are never mounted on the routes, so `validationResult(req)` is always empty and the `validationFailed` flag of `PostsRoutes.CreatePost`, `TopicsRoutes.CreateTopic`, `TopicsRoutes.UpdateTopic` and `CommunitiesRoutes.CreateCommunity` is always false as deployed; the 400 branch is kept for completeness.
- `adminCheckMiddleware` uses `Tokens.Jwt` to sign the name-only payload it mints. What a later verification of that token yields is left to the oracle.
- `FollowsRoutes.DeleteFollow`: the 404 "Follow relationship not found" branch is not modelled, because the ORM's `delete` returns the row or throws, so only 200 and 500 remain.
- `GET /follows` and `GET /comments`/`GET /chats` return the table unchanged and are covered only by `CommentsRoutes.ListComments` and `ChatsRoutes.ListChats`.
- `messages.js` is modelled only as the message table that chat deletion empties. The socket broadcast, seeding, uploads (multer), Swagger, CORS, static serving and server start-up are I/O.
- Concurrency is out of scope: every request runs to completion before the next. The check-then-create in chats and the last-writer-wins refresh slot are therefore sequential. `Voting.ConcurrentUpVotesLoseOne` shows the interleaving of two complete requests, not a race inside one.
- The compiled `.js` twins of the `.ts` routes and middlewares are not modelled; the `.ts` sources are.
- React state, effects, fetching, contexts, pages and forms are not modelled. Rendering is reduced to the values a component computes (rows, cards, labels, URLs).
- Blob/File object URLs in `Post.tsx` and `NavBar.tsx` are not modelled. Only string images are.
- `toLowerCase` is modelled on ASCII letters only, with no Unicode case folding.
- `SortedPosts.Sort` is a stable insertion sort. The engine's own sort algorithm is not modelled, only its result (a stable newest-first permutation). The forwarding of `refreshPosts` carries no data.
- `PostView.CommentToggle` returns the label as a value (`ShowComments(n)` …) rather than the formatted string.

=== FILE: admin_check_middleware.dfy ===
/**
 * The admin gate: lets a request through only when a user loaded from the
 * store has role "admin". It reads the lower-case cookie names `accesstoken`
 * and `refreshtoken`, and its rejections call `res.json(403)`, which sends
 * the number 403 as the body of an ordinary response.
 */
module AdminCheckMiddleware {
  import opened Wrappers
  import opened Schema
  import opened Tokens
  import opened UserStore

  datatype AdminOutcome =
    | AdminNext(setCookie: Option<Cookie>)   // next(), after a renewal with the new cookie
    | Json403                                // res.json(403): body 403, status not set
    | Status401                              // res.status(401)
    | NoResponse                             // neither a response nor next(): the request hangs

  /** The renewed admin cookie: `accesstoken`, 24 hours, readable by scripts. */
  function AdminCookie(value: string): Cookie {
    Cookie("accesstoken", value, false, false, None, None, Some(AdminCookieMaxAgeMs), None)
  }

  /** A stored user of that name exists and is an admin (the first one `findUnique` meets). */
  predicate StoredAdmin(users: seq<User>, name: string) {
    var u := FindByUsername(users, name);
    u.Some? && u.value.role == Some("admin")
  }

  /** The first block's `jwt.verify` of `accesstoken`: a missing or empty cookie throws like a bad one. */
  function GateVerified(jar: Jar, env: Env, jwt: Jwt, now: int): (r: Option<Payload>)
    ensures r.Some? ==> Present(jar, "accesstoken") && env.accessSecretSet && r == jwt.verify(jar["accesstoken"], AccessSecret, now)
    ensures Present(jar, "accesstoken") && env.accessSecretSet ==> r == jwt.verify(jar["accesstoken"], AccessSecret, now)
  {
    if Present(jar, "accesstoken") then Verify(env, jwt, jar["accesstoken"], AccessSecret, now) else None
  }

  /**
   * The gate at time `now`. `dbFails` stands for every store lookup throwing;
   * a throw in the first block lands in the refresh branch, one in the refresh
   * branch in 401.
   */
  function AdminCheck(jar: Jar, users: seq<User>, env: Env, jwt: Jwt, now: int, dbFails: bool): (r: AdminOutcome)
    ensures !env.accessSecretSet ==> r == NoResponse
    ensures env.accessSecretSet && GateVerified(jar, env, jwt, now).Some? && !dbFails ==>
      r == (if StoredAdmin(users, GateVerified(jar, env, jwt, now).value.name) then AdminNext(None) else Json403)
    ensures env.accessSecretSet && (GateVerified(jar, env, jwt, now).None? || dbFails) ==>
      && (!Present(jar, "refreshtoken") ==> r == NoResponse)
      && (Present(jar, "refreshtoken") && dbFails ==> r == Status401)
      && (Present(jar, "refreshtoken") && !dbFails && FindByToken(users, jar["refreshtoken"]).None? ==> r == Json403)
      && (Present(jar, "refreshtoken") && !dbFails && FindByToken(users, jar["refreshtoken"]).Some? ==>
            var u := FindByToken(users, jar["refreshtoken"]).value;
            r == (if StoredAdmin(users, u.username) then AdminNext(Some(AdminCookie(AccessToken(jwt, Payload(u.username, None, None), now)))) else Json403))
    ensures r.AdminNext? ==> !dbFails && exists i :: 0 <= i < |users| && users[i].role == Some("admin")
    ensures r.AdminNext? && r.setCookie.None? ==>
      Present(jar, "accesstoken") && exists p :: jwt.verify(jar["accesstoken"], AccessSecret, now) == Some(p) && StoredAdmin(users, p.name)
    ensures r.AdminNext? && r.setCookie.Some? ==>
      && Present(jar, "refreshtoken")
      && r.setCookie.value.name == "accesstoken"
      && !r.setCookie.value.httpOnly
      && r.setCookie.value.maxAgeMs == Some(AdminCookieMaxAgeMs)
      && exists i :: 0 <= i < |users| && users[i].token == Some(jar["refreshtoken"]) && StoredAdmin(users, users[i].username)
           && r.setCookie.value.value == AccessToken(jwt, Payload(users[i].username, None, None), now)
    ensures r.Status401? ==> dbFails && Present(jar, "refreshtoken")
    ensures env.accessSecretSet && !Present(jar, "refreshtoken") ==> r.AdminNext? || r == Json403 || r == NoResponse
  {
    if !env.accessSecretSet then NoResponse
    else
      var verified := GateVerified(jar, env, jwt, now);
      if verified.Some? && !dbFails then
        if StoredAdmin(users, verified.value.name) then AdminNext(None) else Json403
      else if !Present(jar, "refreshtoken") then NoResponse
      else if dbFails then Status401
      else match FindByToken(users, jar["refreshtoken"])
        case None => Json403
        case Some(u) =>
          // generateAccessToken({ name }) signs a name-only payload; the secret is set here
          var t := AccessToken(jwt, Payload(u.username, None, None), now);
          if StoredAdmin(users, u.username) then AdminNext(Some(AdminCookie(t))) else Json403
  }

  /** The role inside the token is never used: tokens that differ only in id and role get the same answer. */
  lemma TokenRoleIgnored(jar: Jar, users: seq<User>, env: Env, jwt: Jwt, jwt': Jwt, now: int, dbFails: bool, p: Payload, id: Option<int>, role: Option<string>)
    requires Present(jar, "accesstoken")
    requires jwt.verify(jar["accesstoken"], AccessSecret, now) == Some(p)
    requires jwt'.verify(jar["accesstoken"], AccessSecret, now) == Some(p.(id := id, role := role))
    ensures AdminCheck(jar, users, env, jwt', now, dbFails) == AdminCheck(jar, users, env, jwt, now, dbFails)
  {
  }

  /** A token claiming role "admin" for a stored non-admin is turned away. */
  lemma ClaimedAdminRoleRejected(jar: Jar, users: seq<User>, env: Env, jwt: Jwt, now: int, p: Payload)
    requires env.accessSecretSet
    requires Present(jar, "accesstoken")
    requires jwt.verify(jar["accesstoken"], AccessSecret, now) == Some(p)
    requires p.role == Some("admin")
    requires forall i :: 0 <= i < |users| ==> users[i].role != Some("admin")
    ensures AdminCheck(jar, users, env, jwt, now, false) == Json403
  {
  }

  /**
   * With only the cookies login issues (`accessToken`, `refreshToken`) the
   * gate never reads a token and never answers.
   */
  lemma LoginCookiesNeverReachGate(jar: Jar, users: seq<User>, env: Env, jwt: Jwt, now: int, dbFails: bool)
    requires forall k :: k in jar ==> k == "accessToken" || k == "refreshToken"
    ensures AdminCheck(jar, users, env, jwt, now, dbFails) == NoResponse
  {
    assert "accesstoken" != "accessToken" && "refreshtoken" != "refreshToken";
    assert "accesstoken" != "refreshToken" && "refreshtoken" != "accessToken";
  }

  /** The stored expiry is checked on neither branch. */
  lemma AdminRenewalIgnoresStoredExpiry(jar: Jar, users: seq<User>, users': seq<User>, env: Env, jwt: Jwt, now: int, dbFails: bool)
    requires SameButExpiry(users, users')
    ensures AdminCheck(jar, users', env, jwt, now, dbFails) == AdminCheck(jar, users, env, jwt, now, dbFails)
  {
    if env.accessSecretSet {
      var verified := GateVerified(jar, env, jwt, now);
      if verified.Some? && !dbFails {
        LookupsIgnoreExpiry(users, users', "", verified.value.name);
      } else if Present(jar, "refreshtoken") && !dbFails {
        var t := jar["refreshtoken"];
        LookupsIgnoreExpiry(users, users', t, "");
        var found := FindByToken(users, t);
        if found.Some? {
          LookupsIgnoreExpiry(users, users', t, found.value.username);
        }
      }
    }
  }
}

=== FILE: authentication_middleware.dfy ===
/**
 * The session middleware that guards authenticated routes: accept a valid
 * access cookie, otherwise renew it silently from the refresh cookie when
 * that cookie equals some user's stored refresh token.
 */
module AuthenticationMiddleware {
  import opened Wrappers
  import opened Schema
  import opened Tokens
  import opened Http
  import opened UserStore

  /** `next()` with the attached identity (and the renewed cookie, if any), or a 401 with its message. */
  datatype Outcome = Next(auth: Auth, setCookie: Option<Cookie>) | Unauthorized(message: string)

  /** `user.role || undefined`: an empty role is dropped as well as a null one. */
  function DropFalsy(role: Option<string>): (r: Option<string>)
    ensures r.Some? <==> role.Some? && role.value != ""
    ensures r.Some? ==> r == role
  {
    if role.Some? && role.value != "" then role else None
  }

  /** The renewed access cookie: httpOnly, sameSite "none", path "/", 15 minutes; secure only in production. */
  function RenewedAccessCookie(value: string, production: bool): Cookie {
    Cookie("accessToken", value, true, production, Some(SameSiteNone), Some("/"), Some(AccessCookieMaxAgeMs), None)
  }

  /** The identity attached from a verified access token: the payload as it is. */
  function AuthFromPayload(p: Payload): Auth {
    Auth(p.id, Some(p.name), p.role)
  }

  /** The identity attached after a renewal: the stored record, not the stale token. */
  function AuthFromUser(u: User): Auth {
    Auth(Some(u.id), Some(u.username), DropFalsy(u.role))
  }

  /**
   * The middleware at time `now`. `dbFails` stands for the refresh-token lookup
   * throwing; it and a missing access secret during renewal both end in
   * "Refresh failed". `env` is read at the call.
   */
  function Authenticate(jar: Jar, users: seq<User>, env: Env, jwt: Jwt, now: int, dbFails: bool): (r: Outcome)
    ensures !Present(jar, "accessToken") <==> r == Unauthorized("No access token")
    ensures Present(jar, "accessToken") && Verify(env, jwt, jar["accessToken"], AccessSecret, now).Some? ==>
      r == Next(AuthFromPayload(Verify(env, jwt, jar["accessToken"], AccessSecret, now).value), None)
    ensures Present(jar, "accessToken") && Verify(env, jwt, jar["accessToken"], AccessSecret, now).None? ==>
      && (!Present(jar, "refreshToken") ==> r == Unauthorized("No refresh token"))
      && (Present(jar, "refreshToken") && dbFails ==> r == Unauthorized("Refresh failed"))
      && (Present(jar, "refreshToken") && !dbFails && FindByToken(users, jar["refreshToken"]).None? ==>
            r == Unauthorized("Invalid refresh token"))
      && (Present(jar, "refreshToken") && !dbFails && FindByToken(users, jar["refreshToken"]).Some? && !env.accessSecretSet ==>
            r == Unauthorized("Refresh failed"))
      && (Present(jar, "refreshToken") && !dbFails && FindByToken(users, jar["refreshToken"]).Some? && env.accessSecretSet ==>
            var u := FindByToken(users, jar["refreshToken"]).value;
            r == Next(AuthFromUser(u), Some(RenewedAccessCookie(AccessToken(jwt, TokenData(u), now), env.production))))
    ensures r.Next? && r.setCookie.None? ==>
      Present(jar, "accessToken") && Verify(env, jwt, jar["accessToken"], AccessSecret, now) == Some(Payload(r.auth.user.GetOr(""), r.auth.id, r.auth.role))
    ensures r.Next? && r.setCookie.Some? ==>
      && Present(jar, "refreshToken")
      && Verify(env, jwt, jar["accessToken"], AccessSecret, now).None?
      && env.accessSecretSet
      && !dbFails
      && exists i ::
        && 0 <= i < |users|
        && users[i].token == Some(jar["refreshToken"])
        && r.auth == AuthFromUser(users[i])
        && r.setCookie.value == RenewedAccessCookie(AccessToken(jwt, TokenData(users[i]), now), env.production)
    ensures r.Unauthorized? ==>
      r.message in {"No access token", "No refresh token", "Invalid refresh token", "Refresh failed"}
  {
    if !Present(jar, "accessToken") then Unauthorized("No access token")
    else match Verify(env, jwt, jar["accessToken"], AccessSecret, now)
      case Some(p) => Next(AuthFromPayload(p), None)
      case None =>
        if !Present(jar, "refreshToken") then Unauthorized("No refresh token")
        else if dbFails then Unauthorized("Refresh failed")
        else match FindByToken(users, jar["refreshToken"])
          case None => Unauthorized("Invalid refresh token")
          case Some(u) =>
            match Sign(env, jwt, TokenData(u), AccessSecret, AccessLifetimeSeconds, now)
            case None => Unauthorized("Refresh failed")
            case Some(t) => Next(AuthFromUser(u), Some(RenewedAccessCookie(t, env.production)))
  }

  /** Without an access cookie the answer is fixed: the refresh cookie, the store and the oracles are never consulted. */
  lemma MissingAccessCookieConsultsNothing(jar: Jar, refresh: string, users: seq<User>, users': seq<User>, env: Env, env': Env, jwt: Jwt, jwt': Jwt, now: int, now': int, dbFails: bool, dbFails': bool)
    requires !Present(jar, "accessToken")
    ensures Authenticate(jar["refreshToken" := refresh], users', env', jwt', now', dbFails') == Authenticate(jar, users, env, jwt, now, dbFails)
    ensures Authenticate(jar, users, env, jwt, now, dbFails) == Unauthorized("No access token")
  {
    assert !Present(jar["refreshToken" := refresh], "accessToken");
  }

  /** A verifying access token is accepted from its payload alone: no store lookup, no cookie. */
  lemma VerifiedAccessSkipsStore(jar: Jar, users: seq<User>, users': seq<User>, env: Env, jwt: Jwt, now: int, dbFails: bool, dbFails': bool, p: Payload)
    requires Present(jar, "accessToken")
    requires Verify(env, jwt, jar["accessToken"], AccessSecret, now) == Some(p)
    ensures Authenticate(jar, users, env, jwt, now, dbFails) == Next(AuthFromPayload(p), None)
    ensures Authenticate(jar, users', env, jwt, now, dbFails') == Authenticate(jar, users, env, jwt, now, dbFails)
  {
  }

  /**
   * The stored expiry is never read: a refresh token past its `tokenExpire`
   * (or with none at all) renews exactly as a fresh one does.
   */
  lemma RenewalIgnoresStoredExpiry(jar: Jar, users: seq<User>, users': seq<User>, env: Env, jwt: Jwt, now: int, dbFails: bool)
    requires SameButExpiry(users, users')
    ensures Authenticate(jar, users', env, jwt, now, dbFails) == Authenticate(jar, users, env, jwt, now, dbFails)
  {
    if Present(jar, "refreshToken") {
      var t := jar["refreshToken"];
      Seqs.FindIndexPointwise(users, users', (u: User) => u.token == Some(t), (u: User) => u.token == Some(t));
    }
  }

  /**
   * A renewal hands out a cookie the middleware then accepts by itself: if
   * the signing library, at the later time `later`, verifies every access
   * token it signed at `now`, re-presenting the new access cookie yields the
   * same id and name without any store lookup, and the same role except that a
   * stored empty role (dropped at renewal) reappears.
   */
  lemma RenewedCookieIsAccepted(jar: Jar, users: seq<User>, users': seq<User>, env: Env, jwt: Jwt, now: int, later: int, dbFails: bool, dbFails': bool, a: Auth, c: Cookie)
    requires Authenticate(jar, users, env, jwt, now, dbFails) == Next(a, Some(c))
    requires forall p :: jwt.verify(AccessToken(jwt, p, now), AccessSecret, later) == Some(p)
    requires c.value != ""
    ensures Authenticate(jar["accessToken" := c.value], users', env, jwt, later, dbFails').Next?
    ensures Authenticate(jar["accessToken" := c.value], users', env, jwt, later, dbFails').setCookie.None?
    ensures Authenticate(jar["accessToken" := c.value], users', env, jwt, later, dbFails').auth.id == a.id
    ensures Authenticate(jar["accessToken" := c.value], users', env, jwt, later, dbFails').auth.user == a.user
    ensures a.role.Some? ==> Authenticate(jar["accessToken" := c.value], users', env, jwt, later, dbFails').auth.role == a.role
    ensures a.role.None? ==> Authenticate(jar["accessToken" := c.value], users', env, jwt, later, dbFails').auth.role in {None, Some("")}
  {
    var i :| 0 <= i < |users| && users[i].token == Some(jar["refreshToken"]) && a == AuthFromUser(users[i])
      && c == RenewedAccessCookie(AccessToken(jwt, TokenData(users[i]), now), env.production);
    var jar' := jar["accessToken" := c.value];
    assert Present(jar', "accessToken");
    assert Verify(env, jwt, jar'["accessToken"], AccessSecret, later) == Some(TokenData(users[i]));
  }
}

=== FILE: authentication_routes.dfy ===
/**
 * The `/auth` routes: register, login (which fills the single refresh-token
 * slot of the user), token refresh and logout.
 */
module AuthenticationRoutes {
  import opened Wrappers
  import opened Schema
  import opened Tokens
  import opened Http
  import opened Strings
  import opened UserStore

  /** The login cookies: httpOnly, path "/", secure and sameSite "none" in production, else "lax". */
  function SessionCookie(name: string, value: string, maxAgeMs: int, production: bool): Cookie {
    Cookie(name, value, true, production, Some(if production then SameSiteNone else SameSiteLax), Some("/"), Some(maxAgeMs), None)
  }

  /** A cookie overwritten with "" and an expiry at the epoch. */
  function ClearedCookie(name: string, production: bool): Cookie {
    Cookie(name, "", true, production, Some(if production then SameSiteNone else SameSiteLax), Some("/"), None, Some(0))
  }

  /** The login response: its cookies and the JSON body `{ message, username, role }`, which holds no token. */
  datatype Session = Session(cookies: seq<Cookie>, message: string, username: string, role: Option<string>)

  /** `POST /auth/register`. */
  function Register(db: Db, username: Option<string>, password: Option<string>, bcrypt: Bcrypt): (r: Handled<User>)
    ensures !Truthy(username) || !Truthy(password) ==> r == Handled(db, Failed(400, "Username and password required"))
    ensures r.reply.Failed? ==> r.db == db && r.reply.status == 400
    ensures Truthy(username) && Truthy(password) ==>
      (r.reply.Failed? <==> exists i :: 0 <= i < |db.users| && db.users[i].username == username.value)
    ensures Truthy(username) && Truthy(password) && r.reply.Failed? ==>
      r == Handled(db, Failed(400, "This username already exists"))
    ensures r.reply.Sent? ==>
      && r.reply.status == 201
      && r.db == db.(users := db.users + [r.reply.value])
      && r.reply.value.username == username.value
      && r.reply.value.password == bcrypt.hash(password.value)
      && r.reply.value.role == Some("user")
      && r.reply.value.token.None? && r.reply.value.tokenExpire.None?
      && r.reply.value.profileText == Some("profile text")
      && r.reply.value.profileImage == Some("url to profile image")
      && r.reply.value.profileBanner.None?
      && forall i :: 0 <= i < |db.users| ==> db.users[i].id != r.reply.value.id && db.users[i].username != r.reply.value.username
  {
    if !Truthy(username) || !Truthy(password) then Handled(db, Failed(400, "Username and password required"))
    else if FindByUsername(db.users, username.value).Some? then Handled(db, Failed(400, "This username already exists"))
    else
      var u := User(NextUserId(db.users), username.value, bcrypt.hash(password.value), Some("user"), None, None,
                    Some("profile text"), Some("url to profile image"), None);
      Handled(db.(users := db.users + [u]), Sent(201, u))
  }

  /** Registration keeps usernames unique. */
  lemma RegisterKeepsUsernamesUnique(db: Db, username: Option<string>, password: Option<string>, bcrypt: Bcrypt)
    requires UsernamesUnique(db.users)
    ensures UsernamesUnique(Register(db, username, password, bcrypt).db.users)
  {
  }

  /** The access cookie for the claims `p` signed at `now`, as login and `/auth/token` set it. */
  function AccessCookie(jwt: Jwt, p: Payload, now: int, production: bool): Cookie {
    SessionCookie("accessToken", AccessToken(jwt, p, now), AccessCookieMaxAgeMs, production)
  }

  /**
   * `POST /auth/login`. `now` is the clock in milliseconds; a `None` from
   * `compare` or from signing is an exception and answers 500. `env` holds the
   * secrets as they were when the module was loaded.
   */
  function Login(db: Db, username: Option<string>, password: Option<string>, env: Env, jwt: Jwt, bcrypt: Bcrypt, now: int): (r: Handled<Session>)
    ensures r.reply.Failed? ==> r.db == db
    ensures !Truthy(username) || !Truthy(password) ==> r.reply == Failed(400, "Username and password required")
    ensures Truthy(username) && Truthy(password) && FindByUsername(db.users, username.value).None? ==>
      r.reply == Failed(404, "User not found")
    ensures Truthy(username) && Truthy(password) && FindByUsername(db.users, username.value).Some? ==>
      var verdict := bcrypt.compare(password.value, FindByUsername(db.users, username.value).value.password);
      && (verdict.None? ==> r.reply == Failed(500, "Server error"))
      && (verdict == Some(false) ==> r.reply == Failed(401, "Incorrect password"))
      && (verdict == Some(true) ==> (r.reply.Sent? <==> env.accessSecretSet && env.refreshSecretSet))
      && (verdict == Some(true) && !(env.accessSecretSet && env.refreshSecretSet) ==> r.reply == Failed(500, "Server error"))
    ensures r.reply.Sent? ==>
      && r.reply.status == 200
      && Truthy(username) && Truthy(password)
      && env.accessSecretSet && env.refreshSecretSet
      && r.db == db.(users := r.db.users)
      && |r.db.users| == |db.users|
      && exists k ::
        && 0 <= k < |db.users|
        && db.users[k] == FindByUsername(db.users, username.value).value
        && bcrypt.compare(password.value, db.users[k].password) == Some(true)
        && r.db.users[k] == db.users[k].(token := Some(RefreshToken(jwt, TokenData(db.users[k]), now)),
                                          tokenExpire := Some(now + RefreshSlotLifetimeMs))
        && (forall j :: 0 <= j < |db.users| && j != k ==> r.db.users[j] == db.users[j])
        && r.reply.value == Session(
             [AccessCookie(jwt, TokenData(db.users[k]), now, env.production),
              SessionCookie("refreshToken", RefreshToken(jwt, TokenData(db.users[k]), now), RefreshCookieMaxAgeMs, env.production)],
             "Login successful", db.users[k].username, db.users[k].role)
  {
    if !Truthy(username) || !Truthy(password) then Handled(db, Failed(400, "Username and password required"))
    else match FindByUsername(db.users, username.value)
      case None => Handled(db, Failed(404, "User not found"))
      case Some(u) =>
        match bcrypt.compare(password.value, u.password)
        case None => Handled(db, Failed(500, "Server error"))
        case Some(false) => Handled(db, Failed(401, "Incorrect password"))
        case Some(true) =>
          var data := TokenData(u);
          match Sign(env, jwt, data, AccessSecret, AccessLifetimeSeconds, now)
          case None => Handled(db, Failed(500, "Server error"))
          case Some(access) =>
            match Sign(env, jwt, data, RefreshSecret, RefreshLifetimeSeconds, now)
            case None => Handled(db, Failed(500, "Server error"))
            case Some(refresh) =>
              match StoreRefreshSlot(db.users, data.name, refresh, now + RefreshSlotLifetimeMs)
              case None => Handled(db, Failed(500, "Server error"))   // the user was just found by this name
              case Some(users') =>
                var cookies := [SessionCookie("accessToken", access, AccessCookieMaxAgeMs, env.production),
                                SessionCookie("refreshToken", refresh, RefreshCookieMaxAgeMs, env.production)];
                Handled(db.(users := users'), Sent(200, Session(cookies, "Login successful", u.username, u.role)))
  }

  /**
   * `POST /auth/token`: a fresh access cookie for a stored, unexpired refresh
   * token. A missing expiry counts as the epoch, so it is always expired. The
   * stored refresh token is not rotated (the store is not touched).
   */
  function RefreshAccess(users: seq<User>, jar: Jar, env: Env, jwt: Jwt, now: int): (r: Reply<Cookie>)
    ensures !Present(jar, "refreshToken") ==> r == Failed(403, "No refresh token")
    ensures Present(jar, "refreshToken") && FindByToken(users, jar["refreshToken"]).None? ==>
      r == Failed(403, "Invalid refresh token")
    ensures Present(jar, "refreshToken") && FindByToken(users, jar["refreshToken"]).Some? ==>
      var u := FindByToken(users, jar["refreshToken"]).value;
      && (now > u.tokenExpire.GetOr(0) ==> r == Failed(403, "Refresh token expired"))
      && (now <= u.tokenExpire.GetOr(0) && env.accessSecretSet ==> r == Sent(200, AccessCookie(jwt, TokenData(u), now, env.production)))
      && (now <= u.tokenExpire.GetOr(0) && !env.accessSecretSet ==> r == Failed(500, "Server error"))
    ensures r.Sent? ==>
      && r.status == 200
      && Present(jar, "refreshToken")
      && exists i ::
        && 0 <= i < |users|
        && users[i].token == Some(jar["refreshToken"])
        && now <= users[i].tokenExpire.GetOr(0)
        && r.value == AccessCookie(jwt, TokenData(users[i]), now, env.production)
    ensures r.Failed? && r.status == 403 && Present(jar, "refreshToken") && r.message != "Invalid refresh token" ==>
      exists i :: 0 <= i < |users| && users[i].token == Some(jar["refreshToken"]) && now > users[i].tokenExpire.GetOr(0)
  {
    if !Present(jar, "refreshToken") then Failed(403, "No refresh token")
    else match FindByToken(users, jar["refreshToken"])
      case None => Failed(403, "Invalid refresh token")
      case Some(u) =>
        if now > u.tokenExpire.GetOr(0) then Failed(403, "Refresh token expired")
        else match Sign(env, jwt, TokenData(u), AccessSecret, AccessLifetimeSeconds, now)
          case None => Failed(500, "Server error")
          case Some(t) =>
            assert exists i :: 0 <= i < |users| && users[i] == u;
            Sent(200, SessionCookie("accessToken", t, AccessCookieMaxAgeMs, env.production))
  }

  /** `POST /auth/logout`: both cookies cleared; the stored refresh token is left as it is. */
  function Logout(env: Env): (r: Reply<seq<Cookie>>)
    ensures r.Sent? && r.status == 200
    ensures |r.value| == 2 && r.value[0].name == "accessToken" && r.value[1].name == "refreshToken"
    ensures forall i :: 0 <= i < |r.value| ==> r.value[i].value == "" && r.value[i].expiresAt == Some(0)
  {
    Sent(200, [ClearedCookie("accessToken", env.production), ClearedCookie("refreshToken", env.production)])
  }

  /**
   * Logout overwrites exactly the cookies login set: the same names, path,
   * sameSite and secure flags (which a browser matches on), now empty and
   * expired at the epoch.
   */
  lemma LogoutClearsLoginCookies(db: Db, username: Option<string>, password: Option<string>, env: Env, jwt: Jwt, bcrypt: Bcrypt, now: int)
    ensures
      var r := Login(db, username, password, env, jwt, bcrypt, now);
      var cleared := Logout(env).value;
      r.reply.Sent? ==>
        && |cleared| == |r.reply.value.cookies|
        && forall i :: 0 <= i < |cleared| ==>
             && cleared[i].name == r.reply.value.cookies[i].name
             && cleared[i].path == r.reply.value.cookies[i].path
             && cleared[i].sameSite == r.reply.value.cookies[i].sameSite
             && cleared[i].secure == r.reply.value.cookies[i].secure
             && cleared[i].value == "" && cleared[i].expiresAt == Some(0)
  {
  }
}

=== FILE: chat_left_bar.dfy ===
/** The direct-message side bar: the current user's chats and the partners listed from them. */
module ChatLeftBar {
  import opened Schema
  import Seqs
  import ChatsRoutes

  /** The chat has `id` on either side. */
  predicate Involves(c: Chat, id: int) {
    c.user1Id == id || c.user2Id == id
  }

  /** `filteredChats`: the chats the current user takes part in. */
  function FilteredChats(chats: seq<Chat>, me: int): (r: seq<Chat>)
    ensures forall i :: 0 <= i < |r| ==> r[i] in chats && Involves(r[i], me)
    ensures forall i :: 0 <= i < |chats| && Involves(chats[i], me) ==> chats[i] in r
  {
    Seqs.Filter(chats, (c: Chat) => Involves(c, me))
  }

  /** `chats.some(...)` over the filtered chats. */
  predicate InSomeChat(chats: seq<Chat>, id: int) {
    exists i :: 0 <= i < |chats| && Involves(chats[i], id)
  }

  /** `chatUsers`: the fetched users who appear in one of the current user's chats (the current user included). */
  function ChatUsers(users: seq<User>, chats: seq<Chat>, me: int): (r: seq<User>)
    ensures forall i :: 0 <= i < |r| ==> r[i] in users && InSomeChat(FilteredChats(chats, me), r[i].id)
    ensures forall i :: 0 <= i < |users| && InSomeChat(FilteredChats(chats, me), users[i].id) ==> users[i] in r
    ensures Seqs.IsSubsequence(r, users)
  {
    var mine := FilteredChats(chats, me);
    Seqs.Filter(users, (u: User) => InSomeChat(mine, u.id))
  }

  /** The list items: chat users other than the current user, in the order the users were fetched. */
  function Listed(users: seq<User>, chats: seq<Chat>, me: int): (r: seq<User>)
    ensures forall i :: 0 <= i < |r| ==> r[i].id != me
  {
    Seqs.Filter(ChatUsers(users, chats, me), (u: User) => u.id != me)
  }

  /** A fetched user is listed iff they are not the current user and some chat joins the two of them. */
  lemma ListedIffPartner(users: seq<User>, chats: seq<Chat>, me: int, u: User)
    requires u in users
    ensures u in Listed(users, chats, me) <==>
      u.id != me && exists i :: 0 <= i < |chats| && ChatsRoutes.Joins(chats[i], me, u.id)
  {
    var mine := FilteredChats(chats, me);
    var cu := ChatUsers(users, chats, me);
    var k :| 0 <= k < |users| && users[k] == u;
    if u in Listed(users, chats, me) {
      assert u in cu;
      var j :| 0 <= j < |cu| && cu[j] == u;
      var c :| 0 <= c < |mine| && Involves(mine[c], u.id);
      assert mine[c] in chats && Involves(mine[c], me);
      var n :| 0 <= n < |chats| && chats[n] == mine[c];
      assert ChatsRoutes.Joins(chats[n], me, u.id);
    }
    if u.id != me && exists i :: 0 <= i < |chats| && ChatsRoutes.Joins(chats[i], me, u.id) {
      var n :| 0 <= n < |chats| && ChatsRoutes.Joins(chats[n], me, u.id);
      assert chats[n] in mine;
      var c :| 0 <= c < |mine| && mine[c] == chats[n];
      assert Involves(mine[c], u.id);
      assert users[k] in cu;
      var j :| 0 <= j < |cu| && cu[j] == u;
    }
  }

  /** The listed users keep the fetched order. */
  lemma ListedKeepsOrder(users: seq<User>, chats: seq<Chat>, me: int)
    ensures Seqs.IsSubsequence(Listed(users, chats, me), users)
  {
    Seqs.SubsequenceTransitive(Listed(users, chats, me), ChatUsers(users, chats, me), users);
  }
}

=== FILE: chats_routes.dfy ===
/** The `/chats` routes: create with the self and unordered-duplicate guards, list, and delete with its message cascade. */
module ChatsRoutes {
  import opened Wrappers
  import opened Schema
  import opened Http
  import Seqs

  /** The chat joins `a` and `b`, in either order. */
  predicate Joins(c: Chat, a: int, b: int) {
    (c.user1Id == a && c.user2Id == b) || (c.user1Id == b && c.user2Id == a)
  }

  /** No self-chat, and at most one chat per unordered pair of users. */
  ghost predicate ChatsWellFormed(chats: seq<Chat>) {
    && (forall i :: 0 <= i < |chats| ==> chats[i].user1Id != chats[i].user2Id)
    && (forall i, j :: 0 <= i < j < |chats| ==> !Joins(chats[j], chats[i].user1Id, chats[i].user2Id))
  }

  /** `POST /chats` (no authentication). */
  function CreateChat(db: Db, user1: int, user2: int): (r: Handled<Chat>)
    ensures r.reply.Failed? ==> r.db == db && r.reply.status == 400
    ensures user1 == user2 ==> r.reply == Failed(400, "A user cannot start a chat with themselves")
    ensures user1 != user2 ==>
      (r.reply.Failed? <==> exists i :: 0 <= i < |db.chats| && Joins(db.chats[i], user1, user2))
    ensures user1 != user2 && r.reply.Failed? ==> r.reply == Failed(400, "A chat between these users already exists")
    ensures r.reply.Sent? ==>
      && r.reply.status == 201
      && r.reply.value.user1Id == user1 && r.reply.value.user2Id == user2
      && r.db == db.(chats := db.chats + [r.reply.value])
      && forall i :: 0 <= i < |db.chats| ==> db.chats[i].chatId != r.reply.value.chatId
  {
    if user1 == user2 then Handled(db, Failed(400, "A user cannot start a chat with themselves"))
    else match Seqs.FindIndex(db.chats, (c: Chat) => Joins(c, user1, user2))
      case Some(_) => Handled(db, Failed(400, "A chat between these users already exists"))
      case None =>
        var c := Chat(Seqs.NextKey(db.chats, (c: Chat) => c.chatId), user1, user2);
        Handled(db.(chats := db.chats + [c]), Sent(201, c))
  }

  /** One create keeps the chat table well formed. */
  lemma CreatePreservesWellFormed(db: Db, user1: int, user2: int)
    requires ChatsWellFormed(db.chats)
    ensures ChatsWellFormed(CreateChat(db, user1, user2).db.chats)
  {
    var r := CreateChat(db, user1, user2);
    if r.reply.Sent? {
      var s := r.db.chats;
      var n := |db.chats|;
      assert s[n] == r.reply.value;
      forall i, j | 0 <= i < j < |s|
        ensures !Joins(s[j], s[i].user1Id, s[i].user2Id)
      {
        if j == n {
          assert s[i] == db.chats[i];
          if Joins(s[j], s[i].user1Id, s[i].user2Id) {
            assert Joins(db.chats[i], user1, user2);
          }
        }
      }
    }
  }

  /** Applies a series of create requests one after another. */
  function CreateAll(db: Db, requests: seq<(int, int)>): (r: Db)
    ensures r.users == db.users && r.messages == db.messages && |r.chats| >= |db.chats|
    decreases |requests|
  {
    if |requests| == 0 then db
    else CreateAll(CreateChat(db, requests[0].0, requests[0].1).db, requests[1..])
  }

  /** Starting from a well-formed table, no sequence of creates yields a self-chat or a repeated pair. */
  lemma {:induction false} CreateAllWellFormed(db: Db, requests: seq<(int, int)>)
    requires ChatsWellFormed(db.chats)
    ensures ChatsWellFormed(CreateAll(db, requests).chats)
    decreases |requests|
  {
    if |requests| > 0 {
      CreatePreservesWellFormed(db, requests[0].0, requests[0].1);
      CreateAllWellFormed(CreateChat(db, requests[0].0, requests[0].1).db, requests[1..]);
    }
  }

  /** `GET /chats?user1=…&user2=…`: the whole table whatever the query. */
  function ListChats(chats: seq<Chat>, user1: Option<int>, user2: Option<int>): (r: seq<Chat>)
    ensures |r| == |chats| && forall i :: 0 <= i < |r| ==> r[i] == chats[i]
  {
    chats
  }

  /** The query does not narrow the listing. */
  lemma ListChatsIgnoresQuery(chats: seq<Chat>, user1: Option<int>, user2: Option<int>)
    ensures ListChats(chats, user1, user2) == ListChats(chats, None, None) == chats
  {
  }

  /** A created chat is listed last, whatever the query. */
  lemma CreatedChatIsListed(db: Db, user1: int, user2: int, q1: Option<int>, q2: Option<int>)
    ensures
      var r := CreateChat(db, user1, user2);
      r.reply.Sent? ==> ListChats(r.db.chats, q1, q2) == ListChats(db.chats, q1, q2) + [r.reply.value]
  {
  }

  /**
   * `DELETE /chats/:chatId`: the chat's messages go first, then the chat.
   * The two steps are not a transaction, so a missing chat still answers
   * 404 after the message delete.
   */
  function DeleteChat(db: Db, chatId: int): (r: Handled<Chat>)
    ensures r.db.users == db.users && r.db.posts == db.posts && r.db.comments == db.comments
    ensures r.db.follows == db.follows && r.db.topics == db.topics && r.db.communities == db.communities
    ensures forall i :: 0 <= i < |r.db.messages| ==> r.db.messages[i] in db.messages && r.db.messages[i].chatId != chatId
    ensures forall i :: 0 <= i < |db.messages| && db.messages[i].chatId != chatId ==> db.messages[i] in r.db.messages
    ensures r.reply.Failed? <==> forall i :: 0 <= i < |db.chats| ==> db.chats[i].chatId != chatId
    ensures r.reply.Failed? ==> r.reply == Failed(404, "Chat not found") && r.db.chats == db.chats
    ensures r.reply.Sent? ==>
      && r.reply.status == 200
      && r.reply.value.chatId == chatId
      && multiset(r.db.chats) + multiset{r.reply.value} == multiset(db.chats)
      && exists i :: 0 <= i < |db.chats| && db.chats[i] == r.reply.value && r.db.chats == Seqs.RemoveAt(db.chats, i)
  {
    var db1 := db.(messages := Seqs.Filter(db.messages, (m: Message) => m.chatId != chatId));
    match Seqs.DeleteWhere(db1.chats, (c: Chat) => c.chatId, (c: Chat) => None, chatId, Seqs.AnyOwner)
    case Removed(rest, gone) => Handled(db1.(chats := rest), Sent(200, gone))
    case _ => Handled(db1, Failed(404, "Chat not found"))
  }

  /** Removing any one chat keeps the table well formed. */
  lemma RemoveKeepsWellFormed(chats: seq<Chat>, k: nat)
    requires k < |chats| && ChatsWellFormed(chats)
    ensures ChatsWellFormed(Seqs.RemoveAt(chats, k))
  {
    var s := Seqs.RemoveAt(chats, k);
    forall i, j | 0 <= i < j < |s|
      ensures !Joins(s[j], s[i].user1Id, s[i].user2Id)
    {
      var i' := if i < k then i else i + 1;
      var j' := if j < k then j else j + 1;
      assert s[i] == chats[i'] && s[j] == chats[j'];
    }
  }

  /** `DELETE /chats/:chatId` keeps the chat table well formed. */
  lemma DeletePreservesWellFormed(db: Db, chatId: int)
    requires ChatsWellFormed(db.chats)
    ensures ChatsWellFormed(DeleteChat(db, chatId).db.chats)
  {
    var r := DeleteChat(db, chatId);
    if r.reply.Sent? {
      var i :| 0 <= i < |db.chats| && db.chats[i] == r.reply.value && r.db.chats == Seqs.RemoveAt(db.chats, i);
      RemoveKeepsWellFormed(db.chats, i);
    }
  }
}

=== FILE: comments_routes.dfy ===
/** The `/comments` routes: create as the authenticated user, the three listings, and the owner-or-admin delete. */
module CommentsRoutes {
  import opened Wrappers
  import opened Schema
  import opened Http
  import Seqs

  /** Body of `POST /comments`; its `userId` is never read. */
  datatype CommentRequest = CommentRequest(userId: Option<int>, postId: Option<int>, content: Option<string>)

  /** `POST /comments` behind the middleware: the author is `req.id`; an undefined author or post fails with 500. */
  function CreateComment(db: Db, a: Auth, req: CommentRequest): (r: Handled<Comment>)
    ensures r.reply.Failed? ==> r == Handled(db, Failed(500, "Unable to create comment"))
    ensures r.reply.Sent? <==> a.id.Some? && req.postId.Some?
    ensures r.reply.Sent? ==>
      && r.reply.status == 201
      && Some(r.reply.value.userId) == a.id
      && Some(r.reply.value.postId) == req.postId
      && r.reply.value.content == req.content
      && r.db == db.(comments := db.comments + [r.reply.value])
      && forall i :: 0 <= i < |db.comments| ==> db.comments[i].commentId != r.reply.value.commentId
  {
    if a.id.None? || req.postId.None? then Handled(db, Failed(500, "Unable to create comment"))
    else
      var c := Comment(Seqs.NextKey(db.comments, (c: Comment) => c.commentId), a.id.value, req.postId.value, req.content);
      Handled(db.(comments := db.comments + [c]), Sent(201, c))
  }

  /** The comment claimed in the body's `user_id` plays no part. */
  lemma CreateIgnoresBodyUserId(db: Db, a: Auth, req: CommentRequest, claimed: Option<int>)
    ensures CreateComment(db, a, req.(userId := claimed)) == CreateComment(db, a, req)
  {
  }

  /** Which comments a listing returns: `GET /comments`, `/comments/user/:userId`, `/comments/post/:postId`. */
  datatype Scope = Everything | ByUser(userId: int) | ByPost(postId: int)

  predicate InScope(s: Scope, c: Comment) {
    match s
    case Everything => true
    case ByUser(u) => c.userId == u
    case ByPost(p) => c.postId == p
  }

  function ListComments(comments: seq<Comment>, s: Scope): (r: seq<Comment>)
    ensures forall i :: 0 <= i < |r| ==> r[i] in comments && InScope(s, r[i])
    ensures forall i :: 0 <= i < |comments| && InScope(s, comments[i]) ==> comments[i] in r
    ensures Seqs.IsSubsequence(r, comments)
    ensures s.Everything? ==> r == comments
  {
    if s.Everything? then Seqs.SubsequenceReflexive(comments); comments else Seqs.Filter(comments, (c: Comment) => InScope(s, c))
  }

  /**
   * `DELETE /comments/:id` behind the middleware: an admin deletes any
   * comment, anyone else only their own. Every failure, a refused one
   * included, is a 500. `None` when a non-admin has no `req.id`.
   */
  function DeleteComment(db: Db, id: int, a: Auth): (r: Option<Handled<Comment>>)
    ensures r.None? <==> !IsAdmin(a) && a.id.None?
    ensures r.Some? ==> r.value.db == db.(comments := r.value.db.comments)
    ensures r.Some? && r.value.reply.Failed? ==> r.value == Handled(db, Failed(500, "Unable to fetch post comments"))
    ensures r.Some? && r.value.reply.Failed? ==>
      forall i :: 0 <= i < |db.comments| && db.comments[i].commentId == id ==> !IsAdmin(a) && a.id != Some(db.comments[i].userId)
    ensures r.Some? && r.value.reply.Sent? ==>
      && r.value.reply.status == 200
      && r.value.reply.value.commentId == id
      && (IsAdmin(a) || a.id == Some(r.value.reply.value.userId))
      && multiset(r.value.db.comments) + multiset{r.value.reply.value} == multiset(db.comments)
      && exists i :: 0 <= i < |db.comments| && db.comments[i] == r.value.reply.value && r.value.db.comments == Seqs.RemoveAt(db.comments, i)
  {
    match Seqs.DeleteWhere(db.comments, (c: Comment) => c.commentId, (c: Comment) => Some(c.userId), id, OwnerGuardFor(a))
    case Undetermined => None
    case NoMatch => Some(Handled(db, Failed(500, "Unable to fetch post comments")))
    case Removed(rest, gone) => Some(Handled(db.(comments := rest), Sent(200, gone)))
  }

  /** With unique keys, a deleted comment is gone from the table and from every listing. */
  lemma DeletedCommentIsGone(db: Db, id: int, a: Auth, scope: Scope)
    requires Seqs.KeysUnique(db.comments, (c: Comment) => c.commentId)
    ensures
      var r := DeleteComment(db, id, a);
      r.Some? && r.value.reply.Sent? ==>
        && (forall i :: 0 <= i < |r.value.db.comments| ==> r.value.db.comments[i].commentId != id)
        && forall c :: c in ListComments(r.value.db.comments, scope) ==> c.commentId != id
  {
    var r := DeleteComment(db, id, a);
    if r.Some? && r.value.reply.Sent? {
      var i :| 0 <= i < |db.comments| && db.comments[i] == r.value.reply.value
                && r.value.db.comments == Seqs.RemoveAt(db.comments, i);
      Seqs.RemovedKeyGone(db.comments, (c: Comment) => c.commentId, i);
    }
  }

  /** A created comment is appended to exactly the listings whose scope it is in: everything, its post's and its author's. */
  lemma {:induction false} CreatedCommentIsListed(db: Db, a: Auth, req: CommentRequest, s: Scope)
    ensures
      var r := CreateComment(db, a, req);
      r.reply.Sent? ==>
        ListComments(r.db.comments, s)
          == ListComments(db.comments, s) + (if InScope(s, r.reply.value) then [r.reply.value] else [])
  {
    var r := CreateComment(db, a, req);
    if r.reply.Sent? && !s.Everything? {
      Seqs.FilterAppend(db.comments, [r.reply.value], (c: Comment) => InScope(s, c));
    }
  }
}

=== FILE: communities_routes.dfy ===
/** The `/communities` routes: read, create with a default description, rename, and the owner-or-admin delete. */
module CommunitiesRoutes {
  import opened Wrappers
  import opened Schema
  import opened Http
  import opened Strings
  import Seqs

  const DefaultDescription := "Community description here."

  /** `GET /communities/:id`. */
  function GetCommunity(communities: seq<Community>, id: int): (r: Reply<Community>)
    ensures r.Failed? <==> forall i :: 0 <= i < |communities| ==> communities[i].communityId != id
    ensures r.Failed? ==> r == Failed(404, "Community not found")
    ensures r.Sent? ==> r.value in communities && r.value.communityId == id
    ensures r.Sent? ==> exists i :: 0 <= i < |communities| && communities[i] == r.value && forall j :: 0 <= j < i ==> communities[j].communityId != id
  {
    match Seqs.FindFirst(communities, (c: Community) => c.communityId == id)
    case None => Failed(404, "Community not found")
    case Some(c) => Sent(200, c)
  }

  /**
   * `POST /communities` behind the middleware: the name comes from the body's
   * `title`, a falsy description becomes the placeholder, and no owner is set.
   */
  function CreateCommunity(db: Db, title: Option<string>, description: Option<string>, image: Option<string>, validationFailed: bool): (r: Handled<Community>)
    ensures validationFailed ==> r == Handled(db, Failed(400, "validation errors"))
    ensures !validationFailed ==>
      && r.reply.Sent? && r.reply.status == 200
      && r.reply.value.name == title
      && r.reply.value.ownerId.None?
      && r.reply.value.image == image
      && r.reply.value.description == (if Truthy(description) then description.value else DefaultDescription)
      && r.db == db.(communities := db.communities + [r.reply.value])
      && forall i :: 0 <= i < |db.communities| ==> db.communities[i].communityId != r.reply.value.communityId
  {
    if validationFailed then Handled(db, Failed(400, "validation errors"))
    else
      var c := Community(Seqs.NextKey(db.communities, (c: Community) => c.communityId), title, None, image,
                         if Truthy(description) then description.value else DefaultDescription);
      Handled(db.(communities := db.communities + [c]), Sent(200, c))
  }

  /** `PUT /communities/:id`: renames from the body's `name`; a missing community answers "Topic not found". */
  function UpdateCommunity(db: Db, id: int, name: Option<string>, validationFailed: bool): (r: Handled<Community>)
    ensures r.db == db.(communities := r.db.communities)
    ensures r.reply.Failed? ==> r.db == db
    ensures validationFailed ==> r.reply == Failed(400, "validation errors")
    ensures !validationFailed ==> (r.reply.Failed? <==> forall i :: 0 <= i < |db.communities| ==> db.communities[i].communityId != id)
    ensures !validationFailed && r.reply.Failed? ==> r.reply == Failed(404, "Topic not found")
    ensures r.reply.Sent? ==>
      exists k :: 0 <= k < |db.communities| && db.communities[k].communityId == id
        && (forall j :: 0 <= j < k ==> db.communities[j].communityId != id)
        && r.reply.value == db.communities[k].(name := if name.Some? then name else db.communities[k].name)
        && r.db.communities == db.communities[k := r.reply.value]
  {
    if validationFailed then Handled(db, Failed(400, "validation errors"))
    else match Seqs.FindIndex(db.communities, (c: Community) => c.communityId == id)
      case None => Handled(db, Failed(404, "Topic not found"))
      case Some(k) =>
        var c := db.communities[k].(name := if name.Some? then name else db.communities[k].name);
        Handled(db.(communities := db.communities[k := c]), Sent(200, c))
  }

  /** `DELETE /communities/:id`: admin, or `ownerId == req.id`, on a route mounted without the middleware. */
  function DeleteCommunity(db: Db, id: int, a: Auth): (r: Option<Handled<Community>>)
    ensures r.None? <==> !IsAdmin(a) && a.id.None?
    ensures r.Some? ==> r.value.db == db.(communities := r.value.db.communities)
    ensures r.Some? && r.value.reply.Failed? ==> r.value == Handled(db, Failed(404, "Community not found"))
    ensures r.Some? ==>
      (r.value.reply.Failed? <==>
         forall i :: 0 <= i < |db.communities| && db.communities[i].communityId == id ==>
           !IsAdmin(a) && db.communities[i].ownerId != a.id)
    ensures r.Some? && r.value.reply.Sent? ==>
      && r.value.reply.value.communityId == id
      && (IsAdmin(a) || (a.id.Some? && r.value.reply.value.ownerId == a.id))
      && multiset(r.value.db.communities) + multiset{r.value.reply.value} == multiset(db.communities)
      && exists i :: 0 <= i < |db.communities| && db.communities[i] == r.value.reply.value && r.value.db.communities == Seqs.RemoveAt(db.communities, i)
  {
    match Seqs.DeleteWhere(db.communities, (c: Community) => c.communityId, (c: Community) => c.ownerId, id, OwnerGuardFor(a))
    case Undetermined => None
    case NoMatch => Some(Handled(db, Failed(404, "Community not found")))
    case Removed(rest, gone) => Some(Handled(db.(communities := rest), Sent(200, gone)))
  }

  /** A community made by this route has no owner, so only an admin can ever delete it. */
  lemma CreatedCommunityOnlyAdminDeletes(db: Db, title: Option<string>, description: Option<string>, image: Option<string>, a: Auth)
    requires !IsAdmin(a) && a.id.Some?
    ensures
      var c := CreateCommunity(db, title, description, image, false);
      DeleteCommunity(c.db, c.reply.value.communityId, a).Some?
      && DeleteCommunity(c.db, c.reply.value.communityId, a).value.reply.Failed?
  {
    var c := CreateCommunity(db, title, description, image, false);
    var r := DeleteCommunity(c.db, c.reply.value.communityId, a);
    var k := |db.communities|;
    assert c.db.communities[k] == c.reply.value;
    assert forall j :: 0 <= j < k ==> c.db.communities[j].communityId != c.reply.value.communityId;
  }

  /** A created community is what `GET /communities/:id` then returns for its new key. */
  lemma CreatedCommunityIsFetched(db: Db, title: Option<string>, description: Option<string>, image: Option<string>, validationFailed: bool)
    ensures
      var r := CreateCommunity(db, title, description, image, validationFailed);
      r.reply.Sent? ==> GetCommunity(r.db.communities, r.reply.value.communityId) == Sent(200, r.reply.value)
  {
    var r := CreateCommunity(db, title, description, image, validationFailed);
    if r.reply.Sent? {
      assert r.db.communities[|db.communities|] == r.reply.value;
      var g := GetCommunity(r.db.communities, r.reply.value.communityId);
      var i :| 0 <= i < |r.db.communities| && r.db.communities[i] == g.value
                && forall j :: 0 <= j < i ==> r.db.communities[j].communityId != r.reply.value.communityId;
    }
  }

  /** After `PUT /communities/:id`, `GET /communities/:id` returns the renamed community. */
  lemma UpdatedCommunityIsFetched(db: Db, id: int, name: Option<string>, validationFailed: bool)
    ensures
      var r := UpdateCommunity(db, id, name, validationFailed);
      r.reply.Sent? ==> GetCommunity(r.db.communities, id) == Sent(200, r.reply.value)
  {
    var r := UpdateCommunity(db, id, name, validationFailed);
    if r.reply.Sent? {
      var k :| && 0 <= k < |db.communities| && db.communities[k].communityId == id
               && (forall j :: 0 <= j < k ==> db.communities[j].communityId != id)
               && r.reply.value == db.communities[k].(name := if name.Some? then name else db.communities[k].name)
               && r.db.communities == db.communities[k := r.reply.value];
      assert r.db.communities[k].communityId == id;
      var g := GetCommunity(r.db.communities, id);
      var i :| 0 <= i < |r.db.communities| && r.db.communities[i] == g.value
                && forall j :: 0 <= j < i ==> r.db.communities[j].communityId != id;
    }
  }

  /** With unique keys, a deleted community is no longer found. */
  lemma DeletedCommunityIsGone(db: Db, id: int, a: Auth)
    requires Seqs.KeysUnique(db.communities, (c: Community) => c.communityId)
    ensures
      var r := DeleteCommunity(db, id, a);
      r.Some? && r.value.reply.Sent? ==> GetCommunity(r.value.db.communities, id) == Failed(404, "Community not found")
  {
    var r := DeleteCommunity(db, id, a);
    if r.Some? && r.value.reply.Sent? {
      var i :| 0 <= i < |db.communities| && db.communities[i] == r.value.reply.value
                && r.value.db.communities == Seqs.RemoveAt(db.communities, i);
      Seqs.RemovedKeyGone(db.communities, (c: Community) => c.communityId, i);
    }
  }
}

=== FILE: follows_routes.dfy ===
/** The `/follows` routes: create with the self-follow guard, the two directional listings, and delete by key. */
module FollowsRoutes {
  import opened Wrappers
  import opened Schema
  import opened Http
  import Seqs

  /** `POST /follows` (no authentication): only following oneself is refused; duplicates are not looked for. */
  function CreateFollow(db: Db, follower: int, followed: int): (r: Handled<Follow>)
    ensures r.reply.Failed? <==> follower == followed
    ensures r.reply.Failed? ==> r == Handled(db, Failed(400, "A user cannot follow themselves"))
    ensures r.reply.Sent? ==>
      && r.reply.status == 201
      && r.reply.value.followerId == follower && r.reply.value.followedUserId == followed
      && r.db == db.(follows := db.follows + [r.reply.value])
      && forall i :: 0 <= i < |db.follows| ==> db.follows[i].followId != r.reply.value.followId
  {
    if follower == followed then Handled(db, Failed(400, "A user cannot follow themselves"))
    else
      var f := Follow(Seqs.NextKey(db.follows, (f: Follow) => f.followId), follower, followed);
      Handled(db.(follows := db.follows + [f]), Sent(201, f))
  }

  /** The same follow can be created twice: the table then holds two rows for the pair. */
  lemma RepeatedFollowDuplicates(db: Db, follower: int, followed: int)
    requires follower != followed
    ensures
      var once := CreateFollow(db, follower, followed);
      var twice := CreateFollow(once.db, follower, followed);
      && twice.reply.Sent?
      && |Followers(twice.db.follows, followed)| >= 2 + |Followers(db.follows, followed)|
  {
    var once := CreateFollow(db, follower, followed);
    var twice := CreateFollow(once.db, follower, followed);
    Seqs.FilterAppend(db.follows, [once.reply.value], (f: Follow) => f.followedUserId == followed);
    Seqs.FilterAppend(once.db.follows, [twice.reply.value], (f: Follow) => f.followedUserId == followed);
  }

  /** `GET /follows/userFollows/:userId`: the follows that point at the user, i.e. their followers. */
  function Followers(follows: seq<Follow>, userId: int): (r: seq<Follow>)
    ensures forall i :: 0 <= i < |r| ==> r[i] in follows && r[i].followedUserId == userId
    ensures forall i :: 0 <= i < |follows| && follows[i].followedUserId == userId ==> follows[i] in r
    ensures Seqs.IsSubsequence(r, follows)
  {
    Seqs.Filter(follows, (f: Follow) => f.followedUserId == userId)
  }

  /** `GET /follows/userFollowing/:userId`: the follows the user made. */
  function Following(follows: seq<Follow>, userId: int): (r: seq<Follow>)
    ensures forall i :: 0 <= i < |r| ==> r[i] in follows && r[i].followerId == userId
    ensures forall i :: 0 <= i < |follows| && follows[i].followerId == userId ==> follows[i] in r
    ensures Seqs.IsSubsequence(r, follows)
  {
    Seqs.Filter(follows, (f: Follow) => f.followerId == userId)
  }

  /** `DELETE /follows/:id` (no requester check): a missing row throws and answers 500. */
  function DeleteFollow(db: Db, id: int): (r: Handled<Follow>)
    ensures r.db == db.(follows := r.db.follows)
    ensures r.reply.Failed? <==> forall i :: 0 <= i < |db.follows| ==> db.follows[i].followId != id
    ensures r.reply.Failed? ==> r == Handled(db, Failed(500, "Unable to delete follow"))
    ensures r.reply.Sent? ==>
      && r.reply.status == 200
      && r.reply.value.followId == id
      && multiset(r.db.follows) + multiset{r.reply.value} == multiset(db.follows)
      && exists i :: 0 <= i < |db.follows| && db.follows[i] == r.reply.value && r.db.follows == Seqs.RemoveAt(db.follows, i)
  {
    match Seqs.DeleteWhere(db.follows, (f: Follow) => f.followId, (f: Follow) => None, id, Seqs.AnyOwner)
    case Removed(rest, gone) => Handled(db.(follows := rest), Sent(200, gone))
    case _ => Handled(db, Failed(500, "Unable to delete follow"))
  }

  /** A new follow joins the end of its followed user's followers and of its follower's following, and of no other listing. */
  lemma {:induction false} CreatedFollowIsListed(db: Db, follower: int, followed: int, userId: int)
    ensures
      var r := CreateFollow(db, follower, followed);
      r.reply.Sent? ==>
        && Followers(r.db.follows, userId) == Followers(db.follows, userId) + (if followed == userId then [r.reply.value] else [])
        && Following(r.db.follows, userId) == Following(db.follows, userId) + (if follower == userId then [r.reply.value] else [])
  {
    var r := CreateFollow(db, follower, followed);
    if r.reply.Sent? {
      Seqs.FilterAppend(db.follows, [r.reply.value], (f: Follow) => f.followedUserId == userId);
      Seqs.FilterAppend(db.follows, [r.reply.value], (f: Follow) => f.followerId == userId);
    }
  }

  /** The two listings are the two ends of the same rows: `b` lists `f` as a follower of theirs iff `a` lists it as one they follow. */
  lemma FollowersFollowingDual(follows: seq<Follow>, f: Follow, a: int, b: int)
    requires f.followerId == a && f.followedUserId == b
    ensures f in Followers(follows, b) <==> f in Following(follows, a)
    ensures f in Followers(follows, b) <==> f in follows
  {
    if f in follows {
      var i :| 0 <= i < |follows| && follows[i] == f;
    }
  }

  /** Deleting a follow shortens its followed user's followers and its follower's following by exactly one. */
  lemma DeletedFollowShrinksListings(db: Db, id: int)
    ensures
      var r := DeleteFollow(db, id);
      r.reply.Sent? ==>
        && |Followers(r.db.follows, r.reply.value.followedUserId)| + 1 == |Followers(db.follows, r.reply.value.followedUserId)|
        && |Following(r.db.follows, r.reply.value.followerId)| + 1 == |Following(db.follows, r.reply.value.followerId)|
  {
    var r := DeleteFollow(db, id);
    if r.reply.Sent? {
      var g := r.reply.value;
      var i :| 0 <= i < |db.follows| && db.follows[i] == g && r.db.follows == Seqs.RemoveAt(db.follows, i);
      Seqs.FilterRemoveAt(db.follows, i, (f: Follow) => f.followedUserId == g.followedUserId);
      Seqs.FilterRemoveAt(db.follows, i, (f: Follow) => f.followerId == g.followerId);
    }
  }
}

=== FILE: http.dfy ===
/** What a route handler answers, and the request identity the authentication middleware attaches. */
module Http {
  import opened Wrappers
  import opened Schema
  import Seqs

  /** A response: a record with its status, or an error status with its message. */
  datatype Reply<T> = Sent(status: int, value: T) | Failed(status: int, message: string)

  /** The store after the handler ran, and its response. */
  datatype Handled<T> = Handled(db: Db, reply: Reply<T>)

  /** `req.id`, `req.user`, `req.role`; all `None` on a route without the middleware. */
  datatype Auth = Auth(id: Option<int>, user: Option<string>, role: Option<string>)

  const Unauthenticated := Auth(None, None, None)

  /** `req.role == "admin"`. */
  predicate IsAdmin(a: Auth) {
    a.role == Some("admin")
  }

  /**
   * The spread `...(req.role == "admin" ? {} : { <owner>: req.id })` that the
   * delete routes add to their `where` clause.
   */
  function OwnerGuardFor(a: Auth): (g: Seqs.OwnerGuard)
    ensures g.AnyOwner? <==> IsAdmin(a)
    ensures g.OwnedBy? ==> g.owner == a.id
  {
    if IsAdmin(a) then Seqs.AnyOwner else Seqs.OwnedBy(a.id)
  }
}

=== FILE: image_urls.dfy ===
/** Resolution of stored image paths into `src` URLs, as the post list, the post card and the navigation bar do it. */
module ImageUrls {
  import opened Wrappers
  import opened Strings

  /** Already an absolute http(s) URL. */
  predicate IsExternal(image: string) {
    StartsWith(image, "http://") || StartsWith(image, "https://")
  }

  /** The base the post card hard-codes instead of the configured API URL. */
  const PostCardBase := "http://localhost:3001"

  /** The avatar shown when there is no profile image, or when it fails to load. */
  const DefaultAvatar := "/def-av.jpg"

  /** `image.replace(/^\//, "")`: at most one leading slash removed. */
  function StripOneSlash(image: string): (r: string)
    ensures |image| > 0 && image[0] == '/' ==> image == "/" + r
    ensures !(|image| > 0 && image[0] == '/') ==> r == image
  {
    if |image| > 0 && image[0] == '/' then image[1..] else image
  }

  /** `getImageUrl` of the post list: empty for a falsy image, external unchanged, else under `base`. */
  function ListImageUrl(base: string, image: Option<string>): (r: string)
    ensures !Truthy(image) ==> r == ""
    ensures Truthy(image) && IsExternal(image.value) ==> r == image.value
    ensures Truthy(image) && !IsExternal(image.value) ==> r == base + "/" + image.value
  {
    if !Truthy(image) then ""
    else if IsExternal(image.value) then image.value
    else base + "/" + image.value
  }

  /** `getImageUrl` of the post card, for a string image: the same rule on the hard-coded base. */
  function CardImageUrl(image: Option<string>): (r: string)
    ensures r == ListImageUrl(PostCardBase, image)
  {
    if !Truthy(image) then ""
    else if IsExternal(image.value) then image.value
    else PostCardBase + "/" + image.value
  }

  /** `getProfileImageUrl` of the navigation bar, for a string image. */
  function ProfileImageUrl(base: string, image: Option<string>): (r: string)
    ensures !Truthy(image) ==> r == DefaultAvatar
    ensures Truthy(image) && IsExternal(image.value) ==> r == image.value
    ensures Truthy(image) && !IsExternal(image.value) ==> r == base + "/" + StripOneSlash(image.value)
  {
    if !Truthy(image) then DefaultAvatar
    else if IsExternal(image.value) then image.value
    else base + "/" + StripOneSlash(image.value)
  }

  /** A resolved URL resolves to itself again when the base is an http(s) URL. */
  lemma ListImageUrlIdempotent(base: string, image: Option<string>)
    requires IsExternal(base)
    requires Truthy(image)
    ensures ListImageUrl(base, Some(ListImageUrl(base, image))) == ListImageUrl(base, image)
  {
    var r := ListImageUrl(base, image);
    if !IsExternal(image.value) {
      PrefixOfConcat(base, "/" + image.value, if StartsWith(base, "http://") then "http://" else "https://");
    }
  }

  lemma PrefixOfConcat(a: string, b: string, p: string)
    requires StartsWith(a, p)
    ensures StartsWith(a + b, p)
  {
    assert (a + b)[..|p|] == a[..|p|];
  }

  /** With or without one leading slash the navigation bar builds the same URL; a second slash is kept. */
  lemma ProfileSlashNormalised(base: string, name: string)
    requires name != "" && name[0] != '/' && !IsExternal(name)
    ensures ProfileImageUrl(base, Some("/" + name)) == ProfileImageUrl(base, Some(name))
    ensures ProfileImageUrl(base, Some("//" + name)) == base + "//" + name
  {
    NotExternalWithSlash("/" + name);
    NotExternalWithSlash("//" + name);
    assert ("/" + name)[1..] == name;
    assert ("//" + name)[1..] == "/" + name;
  }

  lemma NotExternalWithSlash(s: string)
    requires |s| > 0 && s[0] == '/'
    ensures !IsExternal(s)
  {
    assert !StartsWith(s, "http://") by { assert "http://"[0] == 'h'; }
    assert !StartsWith(s, "https://") by { assert "https://"[0] == 'h'; }
  }
}

=== FILE: messages_view.dfy ===
/** How the chat pane lays out a conversation: which messages render, which carry a header, and which are outgoing. */
module MessagesView {
  import opened Wrappers
  import opened Schema
  import Seqs

  /** A rendered row: nothing (unknown sender), or a bubble with its sender, side and header flag. */
  datatype Row = Hidden | Bubble(sender: User, outgoing: bool, header: bool)

  /** The message at `i` shows avatar, name and date iff it is first or the message at `i - 1` has another sender. */
  predicate StartsGroup(messages: seq<Message>, i: nat)
    requires i < |messages|
  {
    i == 0 || messages[i - 1].senderId != messages[i].senderId
  }

  /** The row for the message at index `i`. */
  function RenderAt(messages: seq<Message>, users: seq<User>, me: int, i: nat): (r: Row)
    requires i < |messages|
    ensures r.Hidden? <==> forall j :: 0 <= j < |users| ==> users[j].id != messages[i].senderId
    ensures r.Bubble? ==>
      && r.sender in users && r.sender.id == messages[i].senderId
      && (r.outgoing <==> messages[i].senderId == me)
      && (r.header <==> StartsGroup(messages, i))
    ensures r.Bubble? ==>
      exists j :: 0 <= j < |users| && users[j] == r.sender && forall k :: 0 <= k < j ==> users[k].id != messages[i].senderId
  {
    match Seqs.FindFirst(users, (u: User) => u.id == messages[i].senderId)
    case None => Hidden
    case Some(u) => Bubble(u, messages[i].senderId == me, StartsGroup(messages, i))
  }

  /** Renders the whole conversation, one row per message, in order. */
  method Render(messages: seq<Message>, users: seq<User>, me: int) returns (rows: seq<Row>)
    ensures |rows| == |messages|
    ensures forall i :: 0 <= i < |messages| ==> rows[i] == RenderAt(messages, users, me, i)
  {
    rows := [];
    var i := 0;
    while i < |messages|
      invariant 0 <= i <= |messages|
      invariant |rows| == i
      invariant forall j :: 0 <= j < i ==> rows[j] == RenderAt(messages, users, me, j)
    {
      rows := rows + [RenderAt(messages, users, me, i)];
      i := i + 1;
    }
  }

  /**
   * Grouping looks at the previous index, not the previous rendered row: a
   * message right after one from an unknown sender still starts a group
   * even when the last visible bubble was its own sender's.
   */
  lemma HeaderAfterHiddenMessage(messages: seq<Message>, users: seq<User>, me: int, i: nat)
    requires 2 <= i < |messages|
    requires messages[i - 2].senderId == messages[i].senderId
    requires RenderAt(messages, users, me, i - 1).Hidden?
    requires RenderAt(messages, users, me, i).Bubble?
    ensures RenderAt(messages, users, me, i).header
    ensures RenderAt(messages, users, me, i - 2).Bubble?
    ensures RenderAt(messages, users, me, i - 2).sender == RenderAt(messages, users, me, i).sender
  {
  }

  /** Within a run of messages from one sender only the first starts a group. */
  lemma OneHeaderPerRun(messages: seq<Message>, lo: nat, hi: nat)
    requires lo < hi <= |messages|
    requires forall j :: lo <= j < hi ==> messages[j].senderId == messages[lo].senderId
    ensures forall j :: lo < j < hi ==> !StartsGroup(messages, j)
  {
  }
}

=== FILE: nav_bar.dfy ===
/** The signed-in area of the navigation bar. */
module NavBar {
  import opened Wrappers
  import opened Schema
  import ImageUrls

  /** The avatar source, the shown name, and a logout button. */
  datatype UserArea = UserArea(avatar: string, name: Option<string>)

  /** Rendered only for a signed-in user; the avatar is resolved by `getProfileImageUrl`. */
  function Area(base: string, currentUser: Option<User>, contextUsername: Option<string>): (r: Option<UserArea>)
    ensures r.None? <==> currentUser.None?
    ensures r.Some? ==> r.value.avatar == ImageUrls.ProfileImageUrl(base, currentUser.value.profileImage)
    ensures r.Some? ==> r.value.name == contextUsername
  {
    if currentUser.None? then None
    else Some(UserArea(ImageUrls.ProfileImageUrl(base, currentUser.value.profileImage), contextUsername))
  }

  /** The image `onError` handler: the avatar falls back to the default picture. */
  function OnAvatarError(a: UserArea): (r: UserArea)
    ensures r.avatar == ImageUrls.DefaultAvatar && r.name == a.name
  {
    a.(avatar := ImageUrls.DefaultAvatar)
  }

  /** A user without a profile image and a user whose image fails to load look the same. */
  lemma MissingAndBrokenAvatarAgree(base: string, u: User, contextUsername: Option<string>)
    ensures u.profileImage == None ==>
      Area(base, Some(u), contextUsername).value == OnAvatarError(Area(base, Some(u), contextUsername).value)
  {
  }
}

=== FILE: post_view.dfy ===
/** One post card: its comment counter and toggle, the delete button rule, adding a comment, and the delete action. */
module PostView {
  import opened Wrappers
  import opened Schema
  import opened Http
  import Seqs
  import UserStore
  import CommentsRoutes
  import PostsRoutes

  /** `countPostComments`: how many of the loaded comments belong to this post. */
  function CommentCount(comments: seq<Comment>, postId: int): (n: nat)
    ensures n <= |comments|
    ensures n == 0 <==> forall i :: 0 <= i < |comments| ==> comments[i].postId != postId
  {
    var mine := Seqs.Filter(comments, (c: Comment) => c.postId == postId);
    if |mine| > 0 then assert mine[0] in comments; |mine|
    else |mine|
  }

  /** The count equals the length of the backend's per-post listing over the same comments. */
  lemma CountMatchesPostListing(comments: seq<Comment>, postId: int)
    ensures CommentCount(comments, postId) == |CommentsRoutes.ListComments(comments, CommentsRoutes.ByPost(postId))|
  {
    Seqs.FilterPointwise(comments, (c: Comment) => c.postId == postId,
                         (c: Comment) => CommentsRoutes.InScope(CommentsRoutes.ByPost(postId), c));
  }

  /** `addComment`: the new comment goes in front. */
  function AddComment(comments: seq<Comment>, c: Comment): (r: seq<Comment>)
    ensures |r| == |comments| + 1 && r[0] == c && r[1..] == comments
  {
    [c] + comments
  }

  /** Adding a comment raises this post's count by one exactly when the comment is for this post. */
  lemma AddCommentCount(comments: seq<Comment>, c: Comment, postId: int)
    ensures CommentCount(AddComment(comments, c), postId) == CommentCount(comments, postId) + (if c.postId == postId then 1 else 0)
  {
    assert AddComment(comments, c)[1..] == comments;
  }

  /** A card that gains a comment for its own post gets a clickable toggle counting one more. */
  lemma AddedCommentOpensToggle(comments: seq<Comment>, c: Comment, open: bool)
    ensures
      var t := CommentToggle(CommentCount(AddComment(comments, c), c.postId), open);
      && t.clickable
      && t.caption == (if open then HideComments(CommentCount(comments, c.postId) + 1) else ShowComments(CommentCount(comments, c.postId) + 1))
  {
    AddCommentCount(comments, c, c.postId);
  }

  /** The comment label: "No comments", or "Show comments (n)" / "Hide comments (n)". */
  datatype Label = NoComments | ShowComments(count: nat) | HideComments(count: nat)

  /** The comment toggle: whether clicking it does anything, and its label. */
  datatype Toggle = Toggle(clickable: bool, caption: Label)

  function CommentToggle(n: nat, open: bool): (t: Toggle)
    ensures t.clickable <==> n > 0
    ensures t.caption.NoComments? <==> n == 0
    ensures !t.caption.NoComments? ==> t.caption.count == n && (t.caption.HideComments? <==> open)
  {
    if n > 0 then Toggle(true, if open then HideComments(n) else ShowComments(n))
    else Toggle(false, NoComments)
  }

  /** The delete button shows iff the card's author name is the signed-in name, or the signed-in role is admin. */
  predicate DeleteVisible(username: string, contextUsername: Option<string>, contextRole: Option<string>) {
    contextUsername == Some(username) || contextRole == Some("admin")
  }

  /**
   * The button mirrors the backend delete filter: with unique names and ids,
   * and the signed-in name and role being those the middleware attaches for
   * the signed-in user, the button shows iff the backend would accept the delete.
   */
  lemma DeleteButtonMirrorsBackend(users: seq<User>, author: User, me: User, post: Post)
    requires UserStore.UsernamesUnique(users) && UserStore.IdsUnique(users)
    requires author in users && me in users
    requires post.userId == author.id
    ensures var a := Auth(Some(me.id), Some(me.username), me.role);
      DeleteVisible(author.username, a.user, a.role) <==> Seqs.Admits(OwnerGuardFor(a), Some(post.userId))
  {
    var i :| 0 <= i < |users| && users[i] == author;
    var j :| 0 <= j < |users| && users[j] == me;
    if author.username == me.username {
      assert i == j;
    }
    if author.id == me.id {
      assert i == j;
    }
  }

  /** The effects of the delete button's handler. */
  datatype Effect = DeleteRequest(postId: int) | RefreshPosts

  /** `deletePost`: the request is commented out, so clicking only refreshes the list. */
  function DeletePostClick(postId: int): (r: seq<Effect>)
    ensures forall i :: 0 <= i < |r| ==> !r[i].DeleteRequest?
    ensures RefreshPosts in r
  {
    [RefreshPosts]
  }

  /**
   * What a handler's effects do to the backend store for the signed-in `a`:
   * a delete request is `DELETE /posts/:id` (a thrown one changes nothing),
   * and a refresh only reads.
   */
  function Perform(db: Db, a: Auth, effects: seq<Effect>): (r: Db)
    ensures r.users == db.users && |r.posts| <= |db.posts|
    ensures (forall i :: 0 <= i < |effects| ==> !effects[i].DeleteRequest?) ==> r == db
    decreases |effects|
  {
    if |effects| == 0 then db
    else
      var db' := match effects[0]
        case RefreshPosts => db
        case DeleteRequest(id) =>
          match PostsRoutes.DeletePost(db, id, a)
          case None => db
          case Some(h) => h.db;
      assert db'.users == db.users && |db'.posts| <= |db.posts| by {
        if effects[0].DeleteRequest? {
          var h := PostsRoutes.DeletePost(db, effects[0].postId, a);
          if h.Some? && h.value.reply.Sent? {
            assert |h.value.db.posts| + 1 == |db.posts| by {
              assert |multiset(h.value.db.posts)| + 1 == |multiset(db.posts)|;
            }
          }
        }
      }
      Perform(db', a, effects[1..])
  }

  /** Clicking delete leaves the store exactly as it was, whoever clicks. */
  lemma DeleteClickLeavesStore(db: Db, a: Auth, postId: int)
    ensures Perform(db, a, DeletePostClick(postId)) == db
  {
  }

  /** Had the request been sent, an admin's click would have removed the post. */
  lemma SentRequestWouldDelete(db: Db, a: Auth, postId: int)
    requires IsAdmin(a)
    requires exists i :: 0 <= i < |db.posts| && db.posts[i].postId == postId
    ensures |Perform(db, a, [DeleteRequest(postId)] + DeletePostClick(postId)).posts| + 1 == |db.posts|
  {
    var h := PostsRoutes.DeletePost(db, postId, a);
    assert |multiset(h.value.db.posts)| + 1 == |multiset(db.posts)|;
    assert ([DeleteRequest(postId)] + DeletePostClick(postId))[1..] == DeletePostClick(postId);
  }
}

=== FILE: posts_list.dfy ===
/** The post list: one card per post, in the order given, or a placeholder when there is nothing to show. */
module PostsList {
  import opened Wrappers
  import opened Schema
  import opened Strings
  import ImageUrls

  /** A fetched post with its author's name and avatar path. */
  datatype PostWithUser = PostWithUser(post: Post, username: Option<string>, profileImage: Option<string>)

  /** The props one post card receives. */
  datatype Card = Card(postId: int, username: string, profileImage: string, upvotes: int, downvotes: int)

  datatype Feed = NoPostsAvailable | Cards(cards: seq<Card>)

  /** The card for one post: the username defaults to the empty string and the avatar is resolved against `base`. */
  function CardFor(base: string, p: PostWithUser): (c: Card)
    ensures c.postId == p.post.postId && c.upvotes == p.post.upvotes && c.downvotes == p.post.downvotes
    ensures c.username == (if Truthy(p.username) then p.username.value else "")
    ensures c.profileImage == ImageUrls.ListImageUrl(base, p.profileImage)
  {
    Card(p.post.postId, if Truthy(p.username) then p.username.value else "", ImageUrls.ListImageUrl(base, p.profileImage),
         p.post.upvotes, p.post.downvotes)
  }

  /** What the list renders for an absent, empty or non-empty `posts` prop. */
  function Render(base: string, posts: Option<seq<PostWithUser>>): (r: Feed)
    ensures r.NoPostsAvailable? <==> posts.None? || |posts.value| == 0
    ensures r.Cards? ==> |r.cards| == |posts.value|
    ensures r.Cards? ==> forall i :: 0 <= i < |r.cards| ==> r.cards[i] == CardFor(base, posts.value[i])
  {
    if posts.None? || |posts.value| == 0 then NoPostsAvailable
    else Cards(seq(|posts.value|, i requires 0 <= i < |posts.value| => CardFor(base, posts.value[i])))
  }
}

=== FILE: posts_routes.dfy ===
/** The `/posts` routes: create, read, update, vote overwrite, and the owner-or-admin delete with its comment cascade. */
module PostsRoutes {
  import opened Wrappers
  import opened Schema
  import opened Http
  import Seqs

  /** Body fields of a create or update; `userId` is sent by clients but never read. */
  datatype PostRequest = PostRequest(title: Option<string>, content: Option<string>, topicId: Option<int>, userId: Option<int>)

  /** The user and the topic a new post `connect`s to both exist; otherwise the ORM throws. */
  predicate Connectable(db: Db, userId: int, topicId: int) {
    && (exists i :: 0 <= i < |db.users| && db.users[i].id == userId)
    && (exists j :: 0 <= j < |db.topics| && db.topics[j].topicId == topicId)
  }

  /**
   * `POST /posts` behind the authentication middleware. The author is
   * `req.id` and the topic is `topic_id`, both attached with `connect`: an
   * undefined `req.id`, or a user or topic that does not exist, makes the
   * insert throw and answers 500. A missing `topic_id` is a 400. New posts
   * start with no votes at time `now`.
   */
  function CreatePost(db: Db, a: Auth, req: PostRequest, image: Option<string>, validationFailed: bool, now: int): (r: Handled<Post>)
    ensures r.reply.Failed? ==> r.db == db
    ensures validationFailed ==> r.reply.Failed? && r.reply.status == 400
    ensures !validationFailed && req.topicId.None? ==> r.reply == Failed(400, "topic_id is required")
    ensures !validationFailed && req.topicId.Some? ==>
      (r.reply.Sent? <==> a.id.Some? && Connectable(db, a.id.value, req.topicId.value))
    ensures !validationFailed && req.topicId.Some? && r.reply.Failed? ==> r.reply == Failed(500, "Internal server error")
    ensures r.reply.Sent? ==>
      && r.reply.status == 200
      && a.id == Some(r.reply.value.userId)
      && req.topicId == Some(r.reply.value.topicId)
      && r.reply.value.title == req.title && r.reply.value.content == req.content && r.reply.value.image == image
      && r.reply.value.upvotes == 0 && r.reply.value.downvotes == 0
      && r.reply.value.createdAt == now
      && r.db == db.(posts := db.posts + [r.reply.value])
      && forall i :: 0 <= i < |db.posts| ==> db.posts[i].postId != r.reply.value.postId
  {
    if validationFailed then Handled(db, Failed(400, "validation errors"))
    else if req.topicId.None? then Handled(db, Failed(400, "topic_id is required"))
    else if a.id.None? || !Connectable(db, a.id.value, req.topicId.value) then Handled(db, Failed(500, "Internal server error"))
    else
      var p := Post(Seqs.NextKey(db.posts, (p: Post) => p.postId), req.title, req.content, a.id.value, req.topicId.value, image, 0, 0, now);
      Handled(db.(posts := db.posts + [p]), Sent(200, p))
  }

  /** A created post is what `GET /posts/:id` then returns for its new key. */
  lemma CreatedPostIsFetched(db: Db, a: Auth, req: PostRequest, image: Option<string>, validationFailed: bool, now: int)
    ensures
      var r := CreatePost(db, a, req, image, validationFailed, now);
      r.reply.Sent? ==> GetPost(r.db.posts, r.reply.value.postId) == Sent(200, r.reply.value)
  {
    var r := CreatePost(db, a, req, image, validationFailed, now);
    if r.reply.Sent? {
      var n := |db.posts|;
      assert r.db.posts[n] == r.reply.value;
      var g := GetPost(r.db.posts, r.reply.value.postId);
      var i :| 0 <= i < |r.db.posts| && r.db.posts[i] == g.value
                && forall j :: 0 <= j < i ==> r.db.posts[j].postId != r.reply.value.postId;
    }
  }

  /** The `user_id` a client puts in the body has no effect on the created post. */
  lemma CreateIgnoresBodyUserId(db: Db, a: Auth, req: PostRequest, image: Option<string>, validationFailed: bool, now: int, claimed: Option<int>)
    ensures CreatePost(db, a, req.(userId := claimed), image, validationFailed, now) == CreatePost(db, a, req, image, validationFailed, now)
  {
  }

  /** `GET /posts/:id`. */
  function GetPost(posts: seq<Post>, id: int): (r: Reply<Post>)
    ensures r.Failed? <==> forall i :: 0 <= i < |posts| ==> posts[i].postId != id
    ensures r.Failed? ==> r == Failed(404, "Post not found")
    ensures r.Sent? ==> r.status == 200 && r.value in posts && r.value.postId == id
    ensures r.Sent? ==> exists i :: 0 <= i < |posts| && posts[i] == r.value && forall j :: 0 <= j < i ==> posts[j].postId != id
  {
    match Seqs.FindFirst(posts, (p: Post) => p.postId == id)
    case None => Failed(404, "Post not found")
    case Some(p) => Sent(200, p)
  }

  /** Replaces the first post with key `id` by `f` of it; `None` when there is none (the ORM throws). */
  function UpdatePostWith(posts: seq<Post>, id: int, f: Post -> Post): (r: Option<(seq<Post>, Post)>)
    ensures r.None? <==> forall i :: 0 <= i < |posts| ==> posts[i].postId != id
    ensures r.Some? ==>
      exists k :: 0 <= k < |posts| && posts[k].postId == id && (forall j :: 0 <= j < k ==> posts[j].postId != id)
        && r.value.1 == f(posts[k]) && r.value.0 == posts[k := r.value.1]
  {
    match Seqs.FindIndex(posts, (p: Post) => p.postId == id)
    case None => None
    case Some(k) => Some((posts[k := f(posts[k])], f(posts[k])))
  }

  /**
   * `PUT /posts/:id`, with no authentication and no ownership filter. Its
   * guard tests the truthiness of the validator's result object, which is
   * always truthy, so the "Invalid request body" 400 is never sent.
   */
  function UpdatePost(db: Db, id: int, req: PostRequest, image: Option<string>): (r: Handled<Post>)
    ensures r.db == db.(posts := r.db.posts)
    ensures r.reply.Sent? || r == Handled(db, Failed(404, "Post not found"))
    ensures r.reply.Failed? <==> forall i :: 0 <= i < |db.posts| ==> db.posts[i].postId != id
    ensures r.reply.Sent? ==>
      && r.reply.status == 200
      && exists k ::
        && 0 <= k < |db.posts| && db.posts[k].postId == id
        && (forall j :: 0 <= j < k ==> db.posts[j].postId != id)
        && r.db.posts == db.posts[k := r.reply.value]
        && r.reply.value.postId == id
        && r.reply.value.title == req.title.OrElse(db.posts[k].title)
        && r.reply.value.content == req.content.OrElse(db.posts[k].content)
        && r.reply.value.topicId == req.topicId.GetOr(db.posts[k].topicId)
        && r.reply.value.image == image.OrElse(db.posts[k].image)
        && r.reply.value.userId == db.posts[k].userId && r.reply.value.createdAt == db.posts[k].createdAt
        && r.reply.value.upvotes == db.posts[k].upvotes && r.reply.value.downvotes == db.posts[k].downvotes
  {
    var edit := (p: Post) => p.(title := req.title.OrElse(p.title),
                                content := req.content.OrElse(p.content),
                                topicId := req.topicId.GetOr(p.topicId),
                                image := image.OrElse(p.image));
    match UpdatePostWith(db.posts, id, edit)
    case None => Handled(db, Failed(404, "Post not found"))
    case Some((posts', p)) => Handled(db.(posts := posts'), Sent(200, p))
  }

  /** After `PUT /posts/:id`, `GET /posts/:id` returns the updated post. */
  lemma UpdatedPostIsFetched(db: Db, id: int, req: PostRequest, image: Option<string>)
    ensures
      var r := UpdatePost(db, id, req, image);
      r.reply.Sent? ==> GetPost(r.db.posts, id) == Sent(200, r.reply.value)
  {
    var r := UpdatePost(db, id, req, image);
    if r.reply.Sent? {
      var k :| && 0 <= k < |db.posts| && db.posts[k].postId == id
               && (forall j :: 0 <= j < k ==> db.posts[j].postId != id)
               && r.db.posts == db.posts[k := r.reply.value]
               && r.reply.value.postId == id;
      assert r.db.posts[k].postId == id;
      var g := GetPost(r.db.posts, id);
      var i :| 0 <= i < |r.db.posts| && r.db.posts[i] == g.value && forall j :: 0 <= j < i ==> r.db.posts[j].postId != id;
    }
  }

  /**
   * `PUT /posts/:id/vote`: the counters are overwritten with exactly the
   * values sent (an undefined one is left alone); nothing is incremented and
   * nobody is authenticated.
   */
  function SetVotes(db: Db, id: int, upvotes: Option<int>, downvotes: Option<int>): (r: Handled<Post>)
    ensures r.db == db.(posts := r.db.posts)
    ensures r.reply.Sent? || r == Handled(db, Failed(404, "Post not found"))
    ensures r.reply.Failed? <==> forall i :: 0 <= i < |db.posts| ==> db.posts[i].postId != id
    ensures r.reply.Sent? ==>
      && (upvotes.Some? ==> r.reply.value.upvotes == upvotes.value)
      && (downvotes.Some? ==> r.reply.value.downvotes == downvotes.value)
      && exists k :: 0 <= k < |db.posts| && db.posts[k].postId == id
           && r.reply.value == db.posts[k].(upvotes := upvotes.GetOr(db.posts[k].upvotes), downvotes := downvotes.GetOr(db.posts[k].downvotes))
           && r.db.posts == db.posts[k := r.reply.value]
  {
    match UpdatePostWith(db.posts, id, (p: Post) => p.(upvotes := upvotes.GetOr(p.upvotes), downvotes := downvotes.GetOr(p.downvotes)))
    case None => Handled(db, Failed(404, "Post not found"))
    case Some((posts', p)) => Handled(db.(posts := posts'), Sent(200, p))
  }

  /** Sending the same counters twice leaves the store as sending them once. */
  lemma SetVotesIdempotent(db: Db, id: int, up: int, down: int)
    ensures
      var once := SetVotes(db, id, Some(up), Some(down)).db;
      SetVotes(once, id, Some(up), Some(down)).db == once
  {
    var once := SetVotes(db, id, Some(up), Some(down));
    if once.reply.Sent? {
      var k :| 0 <= k < |db.posts| && db.posts[k].postId == id
           && once.reply.value == db.posts[k].(upvotes := up, downvotes := down)
           && once.db.posts == db.posts[k := once.reply.value];
      Seqs.FindIndexPointwise(db.posts, once.db.posts, (p: Post) => p.postId == id, (p: Post) => p.postId == id);
    }
  }

  /**
   * `DELETE /posts/:id` behind the middleware. Every comment of the post is
   * deleted first, outside any transaction; then the post is deleted if the
   * requester is an admin or its author. `None` when `req.id` is undefined for
   * a non-admin (the ORM's reading of that filter is not modelled).
   */
  function DeletePost(db: Db, id: int, a: Auth): (r: Option<Handled<Post>>)
    ensures r.None? <==> !IsAdmin(a) && a.id.None?
    ensures r.Some? ==> r.value.db == db.(comments := r.value.db.comments, posts := r.value.db.posts)
    ensures r.Some? ==> forall i :: 0 <= i < |r.value.db.comments| ==> r.value.db.comments[i].postId != id
    ensures r.Some? ==> forall i :: 0 <= i < |db.comments| && db.comments[i].postId != id ==> db.comments[i] in r.value.db.comments
    ensures r.Some? && r.value.reply.Failed? ==> r.value.reply == Failed(404, "Post not found") && r.value.db.posts == db.posts
    ensures r.Some? && r.value.reply.Sent? ==>
      && r.value.reply.value.postId == id
      && (IsAdmin(a) || a.id == Some(r.value.reply.value.userId))
      && multiset(r.value.db.posts) + multiset{r.value.reply.value} == multiset(db.posts)
    ensures r.Some? && r.value.reply.Failed? ==>
      forall i :: 0 <= i < |db.posts| && db.posts[i].postId == id ==> !IsAdmin(a) && a.id != Some(db.posts[i].userId)
  {
    var comments' := Seqs.Filter(db.comments, (c: Comment) => c.postId != id);
    match Seqs.DeleteWhere(db.posts, (p: Post) => p.postId, (p: Post) => Some(p.userId), id, OwnerGuardFor(a))
    case Undetermined => None
    case NoMatch => Some(Handled(db.(comments := comments'), Failed(404, "Post not found")))
    case Removed(rest, gone) => Some(Handled(db.(comments := comments', posts := rest), Sent(200, gone)))
  }

  /** A delete refused for ownership still leaves the post without its comments. */
  lemma RefusedDeleteStillDropsComments(db: Db, id: int, a: Auth, k: nat)
    requires !IsAdmin(a) && a.id.Some?
    requires forall i :: 0 <= i < |db.posts| && db.posts[i].postId == id ==> a.id != Some(db.posts[i].userId)
    requires k < |db.comments| && db.comments[k].postId == id
    ensures DeletePost(db, id, a).Some?
    ensures DeletePost(db, id, a).value.reply == Failed(404, "Post not found")
    ensures DeletePost(db, id, a).value.db.posts == db.posts
    ensures db.comments[k] !in DeletePost(db, id, a).value.db.comments
  {
  }
}

=== FILE: schema.dfy ===
/**
 * The rows of the relational store the routes read and write, and the store
 * itself as one value. Column names follow the database (`user_id` becomes
 * `userId`); timestamps are integers (milliseconds since the epoch).
 */
module Schema {
  import opened Wrappers

  /** One account. `token`/`tokenExpire` form the single refresh-token slot. */
  datatype User = User(
    id: int,
    username: string,
    password: string,            // bcrypt hash
    role: Option<string>,        // "user", "admin" or null
    token: Option<string>,       // the stored refresh token
    tokenExpire: Option<int>,
    profileText: Option<string>,
    profileImage: Option<string>,
    profileBanner: Option<string>)

  datatype Post = Post(
    postId: int,
    title: Option<string>,
    content: Option<string>,
    userId: int,
    topicId: int,
    image: Option<string>,
    upvotes: int,
    downvotes: int,
    createdAt: int)

  datatype Comment = Comment(commentId: int, userId: int, postId: int, content: Option<string>)

  datatype Topic = Topic(topicId: int, title: Option<string>, ownerId: Option<int>, image: Option<string>, description: string)

  datatype Community = Community(communityId: int, name: Option<string>, ownerId: Option<int>, image: Option<string>, description: string)

  /** A direct-message conversation between two users. */
  datatype Chat = Chat(chatId: int, user1Id: int, user2Id: int)

  datatype Message = Message(messageId: int, chatId: int, senderId: int, content: string, createdAt: int)

  /** `followerId` follows `followedUserId`. */
  datatype Follow = Follow(followId: int, followerId: int, followedUserId: int)

  /** The whole store; each route reads and replaces some of its tables. */
  datatype Db = Db(
    users: seq<User>,
    posts: seq<Post>,
    comments: seq<Comment>,
    topics: seq<Topic>,
    communities: seq<Community>,
    chats: seq<Chat>,
    messages: seq<Message>,
    follows: seq<Follow>)
}

=== FILE: seqs.dfy ===
/**
 * Sequence operations standing in for the ORM queries the routes issue:
 * `findFirst`/`findUnique` (first match), `findMany` with a `where` (filter),
 * `delete` (remove one match) and auto-increment keys.
 */
module Seqs {
  import opened Wrappers

  /** `a` occurs in `b` with its order kept (not necessarily contiguously). */
  ghost predicate IsSubsequence<T>(a: seq<T>, b: seq<T>)
    decreases |b|
  {
    if |a| == 0 then true
    else if |b| == 0 then false
    else (a[0] == b[0] && IsSubsequence(a[1..], b[1..])) || IsSubsequence(a, b[1..])
  }

  /** Every sequence is a subsequence of itself. */
  lemma {:induction false} SubsequenceReflexive<T>(s: seq<T>)
    ensures IsSubsequence(s, s)
    decreases |s|
  {
    if |s| > 0 {
      SubsequenceReflexive(s[1..]);
    }
  }

  /** Being a subsequence is transitive. */
  lemma {:induction false} SubsequenceTransitive<T>(a: seq<T>, b: seq<T>, c: seq<T>)
    requires IsSubsequence(a, b) && IsSubsequence(b, c)
    ensures IsSubsequence(a, c)
    decreases |c|
  {
    if |a| > 0 && |c| > 0 {
      if |b| > 0 && b[0] == c[0] && IsSubsequence(b[1..], c[1..]) {
        if a[0] == b[0] && IsSubsequence(a[1..], b[1..]) {
          SubsequenceTransitive(a[1..], b[1..], c[1..]);
        } else {
          SubsequenceTransitive(a, b[1..], c[1..]);
        }
      } else {
        SubsequenceTransitive(a, b, c[1..]);
      }
    }
  }

  /** Index of the first element satisfying `p`. */
  function FindIndex<T>(s: seq<T>, p: T -> bool): (r: Option<nat>)
    ensures r.Some? ==> r.value < |s| && p(s[r.value])
    ensures r.Some? ==> forall j :: 0 <= j < r.value ==> !p(s[j])
    ensures r.None? ==> forall j :: 0 <= j < |s| ==> !p(s[j])
  {
    if |s| == 0 then None
    else if p(s[0]) then Some(0)
    else match FindIndex(s[1..], p)
      case None => None
      case Some(i) => Some(i + 1)
  }

  /** The first element satisfying `p`, as `findFirst` returns it. */
  function FindFirst<T>(s: seq<T>, p: T -> bool): (r: Option<T>)
    ensures r.Some? ==> r.value in s && p(r.value)
    ensures r.None? <==> forall j :: 0 <= j < |s| ==> !p(s[j])
    ensures r.Some? ==> exists i :: 0 <= i < |s| && s[i] == r.value && forall j :: 0 <= j < i ==> !p(s[j])
  {
    match FindIndex(s, p)
    case None => None
    case Some(i) => Some(s[i])
  }

  /** The elements satisfying `p`, in their original order. */
  function Filter<T>(s: seq<T>, p: T -> bool): (r: seq<T>)
    ensures |r| <= |s|
    ensures forall i :: 0 <= i < |r| ==> r[i] in s && p(r[i])
    ensures forall j :: 0 <= j < |s| && p(s[j]) ==> s[j] in r
    ensures IsSubsequence(r, s)
  {
    if |s| == 0 then []
    else if p(s[0]) then [s[0]] + Filter(s[1..], p)
    else Filter(s[1..], p)
  }

  /** Filtering distributes over concatenation. */
  lemma {:induction false} FilterAppend<T>(s: seq<T>, t: seq<T>, p: T -> bool)
    ensures Filter(s + t, p) == Filter(s, p) + Filter(t, p)
    decreases |s|
  {
    if |s| == 0 {
      assert s + t == t;
    } else {
      assert (s + t)[1..] == s[1..] + t;
      FilterAppend(s[1..], t, p);
    }
  }

  /** Filtering by a predicate every element meets changes nothing. */
  lemma {:induction false} FilterAll<T>(s: seq<T>, p: T -> bool)
    requires forall i :: 0 <= i < |s| ==> p(s[i])
    ensures Filter(s, p) == s
    decreases |s|
  {
    if |s| > 0 {
      FilterAll(s[1..], p);
    }
  }

  /** Two filters whose predicates agree on every element give the same result. */
  lemma {:induction false} FilterPointwise<T>(s: seq<T>, p: T -> bool, q: T -> bool)
    requires forall i :: 0 <= i < |s| ==> p(s[i]) == q(s[i])
    ensures Filter(s, p) == Filter(s, q)
    decreases |s|
  {
    if |s| > 0 {
      FilterPointwise(s[1..], p, q);
    }
  }

  /** `s` without its element at index `i`. */
  function RemoveAt<T>(s: seq<T>, i: nat): (r: seq<T>)
    requires i < |s|
    ensures |r| == |s| - 1
    ensures forall j :: 0 <= j < i ==> r[j] == s[j]
    ensures forall j :: i <= j < |r| ==> r[j] == s[j + 1]
    ensures multiset(r) + multiset{s[i]} == multiset(s)
  {
    assert s == s[..i] + [s[i]] + s[i + 1..];
    s[..i] + s[i + 1..]
  }

  /** A key larger than every key in the table, as an auto-increment column hands out. */
  function NextKey<T>(s: seq<T>, key: T -> int): (r: int)
    ensures forall i :: 0 <= i < |s| ==> key(s[i]) < r
  {
    if |s| == 0 then 1
    else
      var rest := NextKey(s[1..], key);
      assert forall i :: 1 <= i < |s| ==> s[i] == s[1..][i - 1];
      if key(s[0]) < rest then rest else key(s[0]) + 1
  }

  /** Two searches whose predicates agree position by position stop at the same index. */
  lemma FindIndexPointwise<T, U>(s: seq<T>, t: seq<U>, p: T -> bool, q: U -> bool)
    requires |s| == |t|
    requires forall i :: 0 <= i < |s| ==> p(s[i]) == q(t[i])
    ensures FindIndex(s, p) == FindIndex(t, q)
  {
  }

  /** Outcome of a single-row delete whose `where` may hold an undefined owner. */
  datatype Removal<T> = Removed(rest: seq<T>, gone: T) | NoMatch | Undetermined

  /**
   * The admin-or-owner part of a delete filter: `AnyOwner` for an admin,
   * otherwise the row's owner must equal `owner` (None: `req.id` unset).
   */
  datatype OwnerGuard = AnyOwner | OwnedBy(owner: Option<int>)

  predicate Admits(g: OwnerGuard, rowOwner: Option<int>) {
    match g
    case AnyOwner => true
    case OwnedBy(o) => o.Some? && rowOwner == o
  }

  /**
   * `delete({ where: { <key>: id, ...guard } })`: removes the first row with the
   * key that the guard admits. A guard holding an undefined owner is left
   * undetermined: the model does not fix how the ORM reads `undefined`.
   */
  function DeleteWhere<T>(s: seq<T>, key: T -> int, owner: T -> Option<int>, id: int, g: OwnerGuard): (r: Removal<T>)
    ensures r.Undetermined? <==> g == OwnedBy(None)
    ensures r.Removed? ==> r.gone in s && key(r.gone) == id && Admits(g, owner(r.gone))
    ensures r.Removed? ==> |r.rest| == |s| - 1 && multiset(r.rest) + multiset{r.gone} == multiset(s)
    ensures r.Removed? ==> exists i :: 0 <= i < |s| && r.gone == s[i] && r.rest == RemoveAt(s, i)
    ensures r.NoMatch? <==> g != OwnedBy(None) && forall j :: 0 <= j < |s| ==> !(key(s[j]) == id && Admits(g, owner(s[j])))
  {
    if g == OwnedBy(None) then Undetermined
    else match FindIndex(s, x => key(x) == id && Admits(g, owner(x)))
      case None => NoMatch
      case Some(i) => Removed(RemoveAt(s, i), s[i])
  }

  /** No two rows share a key. */
  ghost predicate KeysUnique<T>(s: seq<T>, key: T -> int) {
    forall i, j :: 0 <= i < j < |s| ==> key(s[i]) != key(s[j])
  }

  /** With unique keys, removing a row leaves no row with its key. */
  lemma RemovedKeyGone<T>(s: seq<T>, key: T -> int, i: nat)
    requires i < |s| && KeysUnique(s, key)
    ensures forall j :: 0 <= j < |RemoveAt(s, i)| ==> key(RemoveAt(s, i)[j]) != key(s[i])
  {
    var r := RemoveAt(s, i);
    forall j | 0 <= j < |r|
      ensures key(r[j]) != key(s[i])
    {
      if j < i {
        assert r[j] == s[j];
      } else {
        assert r[j] == s[j + 1];
      }
    }
  }

  /** Removing one row shortens a filter by one exactly when the row passes it. */
  lemma FilterRemoveAt<T>(s: seq<T>, i: nat, p: T -> bool)
    requires i < |s|
    ensures |Filter(s, p)| == |Filter(RemoveAt(s, i), p)| + (if p(s[i]) then 1 else 0)
  {
    assert s == s[..i] + [s[i]] + s[i + 1..];
    FilterAppend(s[..i] + [s[i]], s[i + 1..], p);
    FilterAppend(s[..i], [s[i]], p);
    FilterAppend(s[..i], s[i + 1..], p);
  }
}

=== FILE: sessions.dfy ===
/**
 * How login, the `/auth/token` route and the middleware fit together through
 * the single refresh-token slot a user record holds.
 */
module Sessions {
  import opened Wrappers
  import opened Schema
  import opened Tokens
  import opened Http
  import opened Strings
  import opened UserStore
  import opened AuthenticationRoutes
  import opened AuthenticationMiddleware

  /** Only the user at index `k` holds `t` in its slot. */
  lemma SoleHolderIsFound(users: seq<User>, k: nat, t: string)
    requires k < |users| && users[k].token == Some(t)
    requires forall j :: 0 <= j < |users| && j != k ==> users[j].token != Some(t)
    ensures FindByToken(users, t) == Some(users[k])
  {
  }

  /**
   * Login followed by `/auth/token` within the hour: the refresh cookie login
   * set is found in the slot and buys an access cookie for the very claims
   * login signed, now signed at the later time (so the token itself changes
   * once the clock has moved on), provided the new refresh token was not
   * already stored for someone.
   */
  lemma LoginThenRefresh(db: Db, username: Option<string>, password: Option<string>, env: Env, jwt: Jwt, bcrypt: Bcrypt, now: int, later: int)
    requires Login(db, username, password, env, jwt, bcrypt, now).reply.Sent?
    requires now <= later <= now + RefreshSlotLifetimeMs
    requires Login(db, username, password, env, jwt, bcrypt, now).reply.value.cookies[1].value != ""
    requires forall i :: 0 <= i < |db.users| ==>
      db.users[i].token != Some(Login(db, username, password, env, jwt, bcrypt, now).reply.value.cookies[1].value)
    ensures
      var r := Login(db, username, password, env, jwt, bcrypt, now);
      var claims := TokenData(FindByUsername(db.users, username.value).value);
      && r.reply.value.cookies[0] == AccessCookie(jwt, claims, now, env.production)
      && RefreshAccess(r.db.users, map["refreshToken" := r.reply.value.cookies[1].value], env, jwt, later)
           == Sent(200, AccessCookie(jwt, claims, later, env.production))
  {
    var r := Login(db, username, password, env, jwt, bcrypt, now);
    var t := r.reply.value.cookies[1].value;
    LoginFillsSlot(db, username, password, env, jwt, bcrypt, now);
    var k :| && 0 <= k < |r.db.users|
             && r.db.users[k].token == Some(t)
             && r.db.users[k].tokenExpire == Some(now + RefreshSlotLifetimeMs)
             && TokenData(r.db.users[k]) == TokenData(FindByUsername(db.users, username.value).value)
             && (forall j :: 0 <= j < |r.db.users| && j != k ==> r.db.users[j] == db.users[j]);
    assert forall j :: 0 <= j < |r.db.users| && j != k ==> r.db.users[j].token != Some(t);
    RefreshFromSoleHolder(r.db.users, k, env, jwt, later);
  }

  /** A successful login leaves its refresh token, and its expiry, in one row, whose claims the access cookie carries. */
  lemma LoginFillsSlot(db: Db, username: Option<string>, password: Option<string>, env: Env, jwt: Jwt, bcrypt: Bcrypt, now: int)
    ensures
      var r := Login(db, username, password, env, jwt, bcrypt, now);
      r.reply.Sent? ==>
      && |r.db.users| == |db.users|
      && env.accessSecretSet
      && exists k ::
        && 0 <= k < |r.db.users|
        && r.db.users[k].token == Some(r.reply.value.cookies[1].value)
        && r.db.users[k].tokenExpire == Some(now + RefreshSlotLifetimeMs)
        && TokenData(r.db.users[k]) == TokenData(FindByUsername(db.users, username.value).value)
        && (forall j :: 0 <= j < |r.db.users| && j != k ==> r.db.users[j] == db.users[j])
        && r.reply.value.cookies[0] == AccessCookie(jwt, TokenData(r.db.users[k]), now, env.production)
  {
    var r := Login(db, username, password, env, jwt, bcrypt, now);
    if r.reply.Sent? {
      var k :| && 0 <= k < |db.users|
               && db.users[k] == FindByUsername(db.users, username.value).value
               && r.db.users[k] == db.users[k].(token := Some(RefreshToken(jwt, TokenData(db.users[k]), now)),
                                                  tokenExpire := Some(now + RefreshSlotLifetimeMs))
               && (forall j :: 0 <= j < |db.users| && j != k ==> r.db.users[j] == db.users[j])
               && r.reply.value.cookies[1].value == RefreshToken(jwt, TokenData(db.users[k]), now)
               && r.reply.value.cookies[0] == AccessCookie(jwt, TokenData(db.users[k]), now, env.production);
      assert TokenData(r.db.users[k]) == TokenData(db.users[k]);
    }
  }

  /** `/auth/token` with the token held by exactly one user, before its expiry, signs that user's claims at the time of the call. */
  lemma RefreshFromSoleHolder(users: seq<User>, k: nat, env: Env, jwt: Jwt, later: int)
    requires k < |users| && users[k].token.Some? && users[k].token.value != ""
    requires forall j :: 0 <= j < |users| && j != k ==> users[j].token != users[k].token
    requires users[k].tokenExpire.Some? && later <= users[k].tokenExpire.value
    requires env.accessSecretSet
    ensures RefreshAccess(users, map["refreshToken" := users[k].token.value], env, jwt, later)
      == Sent(200, AccessCookie(jwt, TokenData(users[k]), later, env.production))
  {
    SoleHolderIsFound(users, k, users[k].token.value);
  }

  /**
   * After a login only the new refresh token reaches the user: any other
   * token held in that user's slot before is overwritten, so (with unique
   * usernames) it no longer finds them.
   */
  lemma LoginOverwritesSlot(db: Db, username: Option<string>, password: Option<string>, env: Env, jwt: Jwt, bcrypt: Bcrypt, now: int, previous: string)
    requires UsernamesUnique(db.users)
    requires Login(db, username, password, env, jwt, bcrypt, now).reply.Sent?
    requires previous != Login(db, username, password, env, jwt, bcrypt, now).reply.value.cookies[1].value
    ensures
      var users' := Login(db, username, password, env, jwt, bcrypt, now).db.users;
      FindByToken(users', previous).Some? ==> FindByToken(users', previous).value.username != username.value
  {
    var r := Login(db, username, password, env, jwt, bcrypt, now);
    var k :| && 0 <= k < |db.users|
             && db.users[k].username == username.value
             && r.db.users[k] == db.users[k].(token := Some(RefreshToken(jwt, TokenData(db.users[k]), now)),
                                                tokenExpire := Some(now + RefreshSlotLifetimeMs))
             && (forall j :: 0 <= j < |db.users| && j != k ==> r.db.users[j] == db.users[j])
             && r.reply.value.cookies[1].value == RefreshToken(jwt, TokenData(db.users[k]), now);
    var found := FindByToken(r.db.users, previous);
    if found.Some? {
      var j :| 0 <= j < |r.db.users| && r.db.users[j] == found.value;
      assert j != k;
      assert db.users[j].username != db.users[k].username;
    }
  }

  /**
   * The stored expiry separates the two renewal paths: once it has passed,
   * `/auth/token` refuses with 403 while the middleware still renews.
   */
  lemma ExpiredSlotRefusedByRouteButRenewedByMiddleware(jar: Jar, users: seq<User>, env: Env, jwt: Jwt, now: int, k: nat)
    requires env.accessSecretSet
    requires Present(jar, "accessToken") && Present(jar, "refreshToken")
    requires jwt.verify(jar["accessToken"], AccessSecret, now).None?
    requires k < |users| && users[k].token == Some(jar["refreshToken"])
    requires forall j :: 0 <= j < |users| && j != k ==> users[j].token != Some(jar["refreshToken"])
    requires now > users[k].tokenExpire.GetOr(0)
    ensures RefreshAccess(users, jar, env, jwt, now) == Failed(403, "Refresh token expired")
    ensures Authenticate(jar, users, env, jwt, now, false) == Next(AuthFromUser(users[k]), Some(RenewedAccessCookie(AccessToken(jwt, TokenData(users[k]), now), env.production)))
  {
    SoleHolderIsFound(users, k, jar["refreshToken"]);
  }

  /** A slot without an expiry is treated as expired at the epoch: `/auth/token` never renews from it after time 0. */
  lemma NullExpiryNeverRenewsOnRoute(jar: Jar, users: seq<User>, env: Env, jwt: Jwt, now: int)
    requires now > 0
    requires Present(jar, "refreshToken")
    requires forall i :: 0 <= i < |users| && users[i].token == Some(jar["refreshToken"]) ==> users[i].tokenExpire.None?
    ensures RefreshAccess(users, jar, env, jwt, now).Failed?
    ensures RefreshAccess(users, jar, env, jwt, now).status == 403
  {
  }

  /**
   * The routes and the middleware can disagree about the secrets: with the
   * access secret missing from what the routes captured when they were loaded,
   * a correct password still answers 500, while the middleware, which reads
   * the environment at each call, renews from a stored refresh token.
   */
  lemma LoadTimeSecretsSplitLoginFromRenewal(db: Db, username: Option<string>, password: Option<string>, loaded: Env, current: Env, jwt: Jwt, bcrypt: Bcrypt, now: int, jar: Jar)
    requires !loaded.accessSecretSet && current.accessSecretSet
    requires Truthy(username) && Truthy(password) && FindByUsername(db.users, username.value).Some?
    requires bcrypt.compare(password.value, FindByUsername(db.users, username.value).value.password) == Some(true)
    requires Present(jar, "accessToken") && Present(jar, "refreshToken")
    requires jwt.verify(jar["accessToken"], AccessSecret, now).None?
    requires FindByToken(db.users, jar["refreshToken"]).Some?
    ensures Login(db, username, password, loaded, jwt, bcrypt, now).reply == Failed(500, "Server error")
    ensures Authenticate(jar, db.users, current, jwt, now, false).Next?
    ensures Authenticate(jar, db.users, current, jwt, now, false).setCookie.Some?
  {
  }
}

=== FILE: sorted_posts.dfy ===
/** The newest-first feed: a sorted copy of the posts handed to the post list. */
module SortedPosts {
  import opened Wrappers
  import PostsList

  type PostWithUser = PostsList.PostWithUser

  /** Ordered by `created_at`, newest first. */
  ghost predicate NewestFirst(s: seq<PostWithUser>) {
    forall i, j :: 0 <= i < j < |s| ==> s[i].post.createdAt >= s[j].post.createdAt
  }

  /** Places `p` before the first post that is not newer than it. */
  function Insert(p: PostWithUser, s: seq<PostWithUser>): (r: seq<PostWithUser>)
    requires NewestFirst(s)
    ensures NewestFirst(r)
    ensures multiset(r) == multiset(s) + multiset{p}
    ensures |r| == |s| + 1
    ensures |s| > 0 && |r| > 0 ==> r[0] == p || r[0] == s[0]
  {
    if |s| == 0 then [p]
    else if s[0].post.createdAt <= p.post.createdAt then [p] + s
    else
      var rest := Insert(p, s[1..]);
      assert s == [s[0]] + s[1..];
      [s[0]] + rest
  }

  /**
   * `[...posts].sort((a, b) => new Date(b.created_at).getTime() - new Date(a.created_at).getTime())`:
   * a sorted copy, newest first by creation time; the input sequence is a
   * value and cannot change.
   */
  function Sort(s: seq<PostWithUser>): (r: seq<PostWithUser>)
    ensures NewestFirst(r)
    ensures multiset(r) == multiset(s)
    ensures |r| == |s|
  {
    if |s| == 0 then []
    else
      assert s == [s[0]] + s[1..];
      Insert(s[0], Sort(s[1..]))
  }

  /** A feed that is already newest-first comes back unchanged (the sort is stable). */
  lemma {:induction false} SortKeepsSorted(s: seq<PostWithUser>)
    requires NewestFirst(s)
    ensures Sort(s) == s
    decreases |s|
  {
    if |s| > 0 {
      SortKeepsSorted(s[1..]);
      assert s == [s[0]] + s[1..];
    }
  }

  /** The sorted feed shows "No posts available" exactly when the unsorted one would, with as many cards. */
  lemma SortedFeedSameCards(base: string, posts: seq<PostWithUser>)
    ensures PostsList.Render(base, Some(Sort(posts))).NoPostsAvailable? <==> PostsList.Render(base, Some(posts)).NoPostsAvailable?
    ensures PostsList.Render(base, Some(Sort(posts))).Cards? ==> |PostsList.Render(base, Some(Sort(posts))).cards| == |posts|
  {
  }

  /** The first card is a newest post. */
  lemma NewestComesFirst(posts: seq<PostWithUser>, k: nat)
    requires k < |posts|
    ensures Sort(posts)[0].post.createdAt >= posts[k].post.createdAt
  {
    var r := Sort(posts);
    assert posts[k] in multiset(r);
    var j :| 0 <= j < |r| && r[j] == posts[k];
  }
}

=== FILE: strings.dfy ===
/** The few string operations the components use: JavaScript truthiness, `startsWith`, `includes`, ASCII `toLowerCase`. */
module Strings {
  import opened Wrappers

  /** A string-or-undefined value is truthy iff it is defined and non-empty. */
  predicate Truthy(s: Option<string>) {
    s.Some? && s.value != ""
  }

  predicate StartsWith(s: string, prefix: string) {
    |prefix| <= |s| && s[..|prefix|] == prefix
  }

  /** `t` occurs in `s` starting at index `i`. */
  predicate OccursAt(s: string, t: string, i: int) {
    0 <= i && i + |t| <= |s| && s[i..i + |t|] == t
  }

  /** `s.includes(t)`: `t` occurs contiguously somewhere in `s` (the empty string occurs everywhere). */
  function Contains(s: string, t: string): (r: bool)
    ensures r <==> exists i :: OccursAt(s, t, i)
    decreases |s|
  {
    if |t| > |s| then false
    else if s[..|t|] == t then assert OccursAt(s, t, 0); true
    else
      var r := Contains(s[1..], t);
      assert forall i :: OccursAt(s, t, i) ==> OccursAt(s[1..], t, i - 1);
      assert forall j :: OccursAt(s[1..], t, j) ==> OccursAt(s, t, j + 1);
      r
  }

  /** `toLowerCase` restricted to ASCII letters. */
  function LowerChar(c: char): char {
    if 'A' <= c <= 'Z' then (c as int - 'A' as int + 'a' as int) as char else c
  }

  function Lower(s: string): (r: string)
    ensures |r| == |s|
    ensures forall i :: 0 <= i < |s| ==> r[i] == LowerChar(s[i])
  {
    seq(|s|, i requires 0 <= i < |s| => LowerChar(s[i]))
  }

  /** Lower-casing twice is lower-casing once. */
  lemma LowerIdempotent(s: string)
    ensures Lower(Lower(s)) == Lower(s)
  {
  }

  /** Lower-cased strings hold no upper-case ASCII letter. */
  lemma LowerHasNoUpper(s: string)
    ensures forall i :: 0 <= i < |Lower(s)| ==> !('A' <= Lower(s)[i] <= 'Z')
  {
  }

  /** Every string contains itself, so a search for exactly a name finds that name. */
  lemma ContainsSelf(s: string)
    ensures Contains(s, s)
  {
    assert OccursAt(s, s, 0);
  }
}

=== FILE: tokens.dfy ===
/**
 * Signed tokens (JSON Web Tokens, RFC 7519) and cookies. Signing and
 * verification belong to a library and are oracles here; bcrypt likewise.
 */
module Tokens {
  import opened Wrappers

  /** The signed claims `{ name, id, role }`; the admin gate signs `{ name }` alone. */
  datatype Payload = Payload(name: string, id: Option<int>, role: Option<string>)

  datatype Secret = AccessSecret | RefreshSecret

  /**
   * Which secrets are set, and whether it is production, as a piece of code
   * sees them. The `/auth` routes capture their secrets once, when their module
   * is loaded and before `.env` is read; the middlewares read the environment
   * at every call. The two are therefore passed as separate values.
   */
  datatype Env = Env(accessSecretSet: bool, refreshSecretSet: bool, production: bool)

  /**
   * The signing library. `sign(payload, secret, issuedAt, lifetime)` embeds the
   * issue time `iat` (whole seconds) and `exp = iat + lifetime`, so the same
   * claims signed in another second give another token. `verify(token, secret,
   * now)` yields the claims of a well-signed token not yet expired at `now`
   * (milliseconds), and nothing otherwise.
   */
  datatype Jwt = Jwt(sign: (Payload, Secret, int, int) -> string, verify: (string, Secret, int) -> Option<Payload>)

  /** `bcrypt.hash` and `bcrypt.compare`; `compare` yields `None` when it throws. */
  datatype Bcrypt = Bcrypt(hash: string -> string, compare: (string, string) -> Option<bool>)

  const AccessLifetimeSeconds := 15 * 60        // expiresIn "15m"
  const RefreshLifetimeSeconds := 60 * 60       // expiresIn "1h"
  const AccessCookieMaxAgeMs := 15 * 60 * 1000
  const RefreshCookieMaxAgeMs := 60 * 60 * 1000
  const AdminCookieMaxAgeMs := 24 * 60 * 60 * 1000
  const RefreshSlotLifetimeMs := 60 * 60 * 1000 // tokenExpire = now + 1 hour

  predicate SecretSet(env: Env, k: Secret) {
    match k
    case AccessSecret => env.accessSecretSet
    case RefreshSecret => env.refreshSecretSet
  }

  /** The library's clock: `Math.floor(Date.now() / 1000)` for a time in milliseconds. */
  function Seconds(nowMs: int): int {
    nowMs / 1000
  }

  /** The 15-minute access token for the claims `p`, signed at `now`. */
  function AccessToken(jwt: Jwt, p: Payload, now: int): string {
    jwt.sign(p, AccessSecret, Seconds(now), AccessLifetimeSeconds)
  }

  /** The one-hour refresh token for the claims `p`, signed at `now`. */
  function RefreshToken(jwt: Jwt, p: Payload, now: int): string {
    jwt.sign(p, RefreshSecret, Seconds(now), RefreshLifetimeSeconds)
  }

  /** `jwt.sign` at time `now`, which throws (`None`) when the secret is undefined. */
  function Sign(env: Env, jwt: Jwt, p: Payload, k: Secret, lifetime: int, now: int): (r: Option<string>)
    ensures r.Some? <==> SecretSet(env, k)
    ensures r.Some? ==> r.value == jwt.sign(p, k, Seconds(now), lifetime)
  {
    if SecretSet(env, k) then Some(jwt.sign(p, k, Seconds(now), lifetime)) else None
  }

  /** `jwt.verify` at time `now`, which throws (`None`) when the secret is undefined or the token is bad or expired. */
  function Verify(env: Env, jwt: Jwt, token: string, k: Secret, now: int): (r: Option<Payload>)
    ensures r.Some? ==> SecretSet(env, k) && r == jwt.verify(token, k, now)
    ensures !SecretSet(env, k) ==> r.None?
  {
    if SecretSet(env, k) then jwt.verify(token, k, now) else None
  }

  datatype SameSite = SameSiteNone | SameSiteLax

  /** A `Set-Cookie` instruction; absent options are `None`. */
  datatype Cookie = Cookie(
    name: string,
    value: string,
    httpOnly: bool,
    secure: bool,
    sameSite: Option<SameSite>,
    path: Option<string>,
    maxAgeMs: Option<int>,
    expiresAt: Option<int>)

  /** Request cookies by name. */
  type Jar = map<string, string>

  /** `req.cookies[name]` is truthy. */
  predicate Present(jar: Jar, name: string) {
    name in jar && jar[name] != ""
  }
}

=== FILE: topics_routes.dfy ===
/** The `/topics` routes: title filter, read, create with a default description, rename, and the owner-or-admin delete. */
module TopicsRoutes {
  import opened Wrappers
  import opened Schema
  import opened Http
  import opened Strings
  import Seqs
  import UserStore

  const DefaultDescription := "Lorem ipsum dolor sit amet, consectetur adipiscing elit. Vivamus ac massa et nulla feugiat iaculis. Donec tellus sapien, molestie vel massa vitae, scelerisque eleifend urna"

  /** The title filter `{ where: { title } }`. */
  function TitleIs(title: Option<string>): Topic -> bool {
    (t: Topic) => t.title == title
  }

  /** `GET /topics?title=…`: every topic, or those whose title is exactly the query. */
  function ListTopics(topics: seq<Topic>, title: Option<string>): (r: seq<Topic>)
    ensures !Truthy(title) ==> r == topics
    ensures Truthy(title) ==> forall i :: 0 <= i < |r| ==> r[i] in topics && r[i].title == title
    ensures Truthy(title) ==> forall i :: 0 <= i < |topics| && topics[i].title == title ==> topics[i] in r
    ensures Seqs.IsSubsequence(r, topics)
  {
    if !Truthy(title) then Seqs.SubsequenceReflexive(topics); topics else Seqs.Filter(topics, TitleIs(title))
  }

  /** A post as `include: { user: true }` sends it: with its author's whole stored row, when there is one. */
  datatype PostWithUser = PostWithUser(post: Post, user: Option<User>)

  /** A topic as the listing sends it, under `include: { owner: true, posts: { include: { user: true } } }`. */
  datatype TopicWithRelations = TopicWithRelations(topic: Topic, owner: Option<User>, posts: seq<PostWithUser>)

  /** Each post with its author's row, as `include: { user: true }` attaches it. */
  function WithAuthors(users: seq<User>, posts: seq<Post>): (r: seq<PostWithUser>)
    ensures |r| == |posts|
    ensures forall i :: 0 <= i < |r| ==> r[i].post == posts[i]
    ensures forall i :: 0 <= i < |r| && r[i].user.Some? ==> r[i].user.value in users && r[i].user.value.id == posts[i].userId
    ensures forall i :: 0 <= i < |r| ==> (r[i].user.None? <==> forall j :: 0 <= j < |users| ==> users[j].id != posts[i].userId)
  {
    seq(|posts|, i requires 0 <= i < |posts| => PostWithUser(posts[i], UserStore.FindById(users, posts[i].userId)))
  }

  /** The owner's row, as `include: { owner: true }` attaches it; none for an unowned topic or a missing user. */
  function OwnerOf(users: seq<User>, t: Topic): (r: Option<User>)
    ensures r.Some? ==> r.value in users && Some(r.value.id) == t.ownerId
    ensures r.None? <==> t.ownerId.None? || forall i :: 0 <= i < |users| ==> users[i].id != t.ownerId.value
  {
    if t.ownerId.Some? then UserStore.FindById(users, t.ownerId.value) else None
  }

  /** The topic's posts in stored order, each with its author's row. */
  function PostsOf(db: Db, t: Topic): (r: seq<PostWithUser>)
    ensures forall i :: 0 <= i < |r| ==> r[i].post in db.posts && r[i].post.topicId == t.topicId
    ensures forall j :: 0 <= j < |db.posts| && db.posts[j].topicId == t.topicId ==> exists i :: 0 <= i < |r| && r[i].post == db.posts[j]
    ensures forall i :: 0 <= i < |r| && r[i].user.Some? ==> r[i].user.value in db.users && r[i].user.value.id == r[i].post.userId
    ensures forall i :: 0 <= i < |r| ==> (r[i].user.None? <==> forall j :: 0 <= j < |db.users| ==> db.users[j].id != r[i].post.userId)
  {
    var ps := Seqs.Filter(db.posts, (p: Post) => p.topicId == t.topicId);
    var r := WithAuthors(db.users, ps);
    forall j | 0 <= j < |db.posts| && db.posts[j].topicId == t.topicId
      ensures exists i :: 0 <= i < |r| && r[i].post == db.posts[j]
    {
      var i :| 0 <= i < |ps| && ps[i] == db.posts[j];
      assert r[i].post == db.posts[j];
    }
    r
  }

  /** One topic with its owner's row and its posts, each with its author's row. */
  function Expand(db: Db, t: Topic): (r: TopicWithRelations)
    ensures r.topic == t
    ensures r.owner == OwnerOf(db.users, t) && r.posts == PostsOf(db, t)
  {
    TopicWithRelations(t, OwnerOf(db.users, t), PostsOf(db, t))
  }

  /** The body of `GET /topics?title=…`: the listed topics, in order, each with its relations. */
  function ListTopicsResponse(db: Db, title: Option<string>): (r: seq<TopicWithRelations>)
    ensures |r| == |ListTopics(db.topics, title)|
    ensures forall i :: 0 <= i < |r| ==> r[i].topic == ListTopics(db.topics, title)[i]
    ensures forall i :: 0 <= i < |r| && r[i].owner.Some? ==> r[i].owner.value in db.users
    ensures forall i :: 0 <= i < |r| ==> r[i].owner == OwnerOf(db.users, r[i].topic) && r[i].posts == PostsOf(db, r[i].topic)
  {
    var listed := ListTopics(db.topics, title);
    seq(|listed|, i requires 0 <= i < |listed| => Expand(db, listed[i]))
  }

  /**
   * The listing is unauthenticated and sends each owner's whole stored row:
   * with unique ids, every listed topic's owner is sent with their password
   * hash and refresh token.
   */
  lemma ListingSendsOwnerSecrets(db: Db, title: Option<string>, t: Topic, k: nat)
    requires UserStore.IdsUnique(db.users)
    requires t in ListTopics(db.topics, title)
    requires k < |db.users| && t.ownerId == Some(db.users[k].id)
    ensures
      exists i ::
        && 0 <= i < |ListTopicsResponse(db, title)|
        && ListTopicsResponse(db, title)[i].topic == t
        && ListTopicsResponse(db, title)[i].owner == Some(db.users[k])
        && ListTopicsResponse(db, title)[i].owner.value.password == db.users[k].password
        && ListTopicsResponse(db, title)[i].owner.value.token == db.users[k].token
  {
    var listed := ListTopics(db.topics, title);
    var r := ListTopicsResponse(db, title);
    var i :| 0 <= i < |listed| && listed[i] == t;
    assert r[i] == Expand(db, t);
    var o := r[i].owner;
    assert o.Some?;
    var j :| 0 <= j < |db.users| && db.users[j] == o.value;
    assert j == k;
  }

  /** With unique ids, a post of the topic is attached with its author's stored row. */
  lemma AuthorAttached(db: Db, t: Topic, p: Post, k: nat) returns (j: nat)
    requires UserStore.IdsUnique(db.users)
    requires p in db.posts && p.topicId == t.topicId
    requires k < |db.users| && p.userId == db.users[k].id
    ensures j < |PostsOf(db, t)| && PostsOf(db, t)[j].post == p && PostsOf(db, t)[j].user == Some(db.users[k])
  {
    var ps := PostsOf(db, t);
    var n :| 0 <= n < |db.posts| && db.posts[n] == p;
    j :| 0 <= j < |ps| && ps[j].post == p;
    var author := ps[j].user;
    assert author.Some?;
    var m :| 0 <= m < |db.users| && db.users[m] == author.value;
    assert m == k;
  }

  /**
   * The listing also sends each post's author row whole: with unique ids,
   * every post of a listed topic goes out with its author's password hash
   * and refresh token.
   */
  lemma ListingSendsAuthorSecrets(db: Db, title: Option<string>, t: Topic, p: Post, k: nat)
    requires UserStore.IdsUnique(db.users)
    requires t in ListTopics(db.topics, title)
    requires p in db.posts && p.topicId == t.topicId
    requires k < |db.users| && p.userId == db.users[k].id
    ensures
      exists i, j ::
        && 0 <= i < |ListTopicsResponse(db, title)|
        && ListTopicsResponse(db, title)[i].topic == t
        && 0 <= j < |ListTopicsResponse(db, title)[i].posts|
        && ListTopicsResponse(db, title)[i].posts[j].post == p
        && ListTopicsResponse(db, title)[i].posts[j].user == Some(db.users[k])
        && ListTopicsResponse(db, title)[i].posts[j].user.value.password == db.users[k].password
        && ListTopicsResponse(db, title)[i].posts[j].user.value.token == db.users[k].token
  {
    var listed := ListTopics(db.topics, title);
    var r := ListTopicsResponse(db, title);
    var i :| 0 <= i < |listed| && listed[i] == t;
    assert r[i].topic == t && r[i].posts == PostsOf(db, t);
    var j := AuthorAttached(db, t, p, k);
    assert r[i].posts[j].post == p && r[i].posts[j].user == Some(db.users[k]);
  }

  /** `GET /topics/:id`. */
  function GetTopic(topics: seq<Topic>, id: int): (r: Reply<Topic>)
    ensures r.Failed? <==> forall i :: 0 <= i < |topics| ==> topics[i].topicId != id
    ensures r.Failed? ==> r == Failed(404, "Topic not found")
    ensures r.Sent? ==> r.value in topics && r.value.topicId == id
    ensures r.Sent? ==> exists i :: 0 <= i < |topics| && topics[i] == r.value && forall j :: 0 <= j < i ==> topics[j].topicId != id
  {
    match Seqs.FindFirst(topics, (t: Topic) => t.topicId == id)
    case None => Failed(404, "Topic not found")
    case Some(t) => Sent(200, t)
  }

  /** `POST /topics` behind the middleware: owned by `req.id`; a falsy description becomes the placeholder text. */
  function CreateTopic(db: Db, a: Auth, title: Option<string>, description: Option<string>, image: Option<string>, validationFailed: bool): (r: Handled<Topic>)
    ensures r.reply.Failed? ==> r.db == db
    ensures validationFailed ==> r.reply.Failed? && r.reply.status == 400
    ensures !validationFailed ==> (r.reply.Sent? <==> a.id.Some?)
    ensures !validationFailed && a.id.None? ==> r.reply == Failed(500, "Internal server error")
    ensures r.reply.Sent? ==>
      && !validationFailed
      && r.reply.status == 200
      && r.reply.value.ownerId == a.id
      && r.reply.value.title == title
      && r.reply.value.image == image
      && r.reply.value.description == (if Truthy(description) then description.value else DefaultDescription)
      && r.db == db.(topics := db.topics + [r.reply.value])
      && forall i :: 0 <= i < |db.topics| ==> db.topics[i].topicId != r.reply.value.topicId
  {
    if validationFailed then Handled(db, Failed(400, "validation errors"))
    else if a.id.None? then Handled(db, Failed(500, "Internal server error"))
    else
      var t := Topic(Seqs.NextKey(db.topics, (t: Topic) => t.topicId), title, a.id, image,
                     if Truthy(description) then description.value else DefaultDescription);
      Handled(db.(topics := db.topics + [t]), Sent(200, t))
  }

  /** `PUT /topics/:id`: the title is taken from the body's `name` (an undefined one is left alone). */
  function UpdateTopic(db: Db, id: int, name: Option<string>, validationFailed: bool): (r: Handled<Topic>)
    ensures r.db == db.(topics := r.db.topics)
    ensures r.reply.Failed? ==> r.db == db
    ensures validationFailed ==> r.reply == Failed(400, "validation errors")
    ensures !validationFailed ==> (r.reply.Failed? <==> forall i :: 0 <= i < |db.topics| ==> db.topics[i].topicId != id)
    ensures !validationFailed && r.reply.Failed? ==> r.reply == Failed(404, "Topic not found")
    ensures r.reply.Sent? ==>
      exists k :: 0 <= k < |db.topics| && db.topics[k].topicId == id
        && (forall j :: 0 <= j < k ==> db.topics[j].topicId != id)
        && r.reply.value == db.topics[k].(title := if name.Some? then name else db.topics[k].title)
        && r.db.topics == db.topics[k := r.reply.value]
  {
    if validationFailed then Handled(db, Failed(400, "validation errors"))
    else match Seqs.FindIndex(db.topics, (t: Topic) => t.topicId == id)
      case None => Handled(db, Failed(404, "Topic not found"))
      case Some(k) =>
        var t := db.topics[k].(title := if name.Some? then name else db.topics[k].title);
        Handled(db.(topics := db.topics[k := t]), Sent(200, t))
  }

  /**
   * `DELETE /topics/:id`: admin, or `ownerId == req.id`. The route is mounted
   * without the middleware, so `a` is normally `Unauthenticated`; `None` when
   * the owner filter is undefined.
   */
  function DeleteTopic(db: Db, id: int, a: Auth): (r: Option<Handled<Topic>>)
    ensures r.None? <==> !IsAdmin(a) && a.id.None?
    ensures r.Some? ==> r.value.db == db.(topics := r.value.db.topics)
    ensures r.Some? && r.value.reply.Failed? ==> r.value == Handled(db, Failed(404, "Topic not found"))
    ensures r.Some? ==>
      (r.value.reply.Failed? <==>
         forall i :: 0 <= i < |db.topics| && db.topics[i].topicId == id ==>
           !IsAdmin(a) && db.topics[i].ownerId != a.id)
    ensures r.Some? && r.value.reply.Sent? ==>
      && r.value.reply.value.topicId == id
      && (IsAdmin(a) || (a.id.Some? && r.value.reply.value.ownerId == a.id))
      && multiset(r.value.db.topics) + multiset{r.value.reply.value} == multiset(db.topics)
      && exists i :: 0 <= i < |db.topics| && db.topics[i] == r.value.reply.value && r.value.db.topics == Seqs.RemoveAt(db.topics, i)
  {
    match Seqs.DeleteWhere(db.topics, (t: Topic) => t.topicId, (t: Topic) => t.ownerId, id, OwnerGuardFor(a))
    case Undetermined => None
    case NoMatch => Some(Handled(db, Failed(404, "Topic not found")))
    case Removed(rest, gone) => Some(Handled(db.(topics := rest), Sent(200, gone)))
  }

  /** As mounted, the delete never sees an identity: the admin branch is unreachable and the owner filter is undefined. */
  lemma DeleteWithoutMiddlewareUndetermined(db: Db, id: int)
    ensures DeleteTopic(db, id, Unauthenticated).None?
  {
  }

  /** A created topic is what `GET /topics/:id` then returns for its new key. */
  lemma CreatedTopicIsFetched(db: Db, a: Auth, title: Option<string>, description: Option<string>, image: Option<string>, validationFailed: bool)
    ensures
      var r := CreateTopic(db, a, title, description, image, validationFailed);
      r.reply.Sent? ==> GetTopic(r.db.topics, r.reply.value.topicId) == Sent(200, r.reply.value)
  {
    var r := CreateTopic(db, a, title, description, image, validationFailed);
    if r.reply.Sent? {
      assert r.db.topics[|db.topics|] == r.reply.value;
      var g := GetTopic(r.db.topics, r.reply.value.topicId);
      var i :| 0 <= i < |r.db.topics| && r.db.topics[i] == g.value
                && forall j :: 0 <= j < i ==> r.db.topics[j].topicId != r.reply.value.topicId;
    }
  }

  /** A created topic joins the end of every listing whose title filter it passes, and no other. */
  lemma {:induction false} CreatedTopicIsListed(db: Db, a: Auth, title: Option<string>, description: Option<string>, image: Option<string>, validationFailed: bool, query: Option<string>)
    ensures
      var r := CreateTopic(db, a, title, description, image, validationFailed);
      r.reply.Sent? ==>
        ListTopics(r.db.topics, query)
          == ListTopics(db.topics, query) + (if !Truthy(query) || title == query then [r.reply.value] else [])
  {
    var r := CreateTopic(db, a, title, description, image, validationFailed);
    if r.reply.Sent? && Truthy(query) {
      Seqs.FilterAppend(db.topics, [r.reply.value], TitleIs(query));
    }
  }

  /** After `PUT /topics/:id`, `GET /topics/:id` returns the renamed topic. */
  lemma UpdatedTopicIsFetched(db: Db, id: int, name: Option<string>, validationFailed: bool)
    ensures
      var r := UpdateTopic(db, id, name, validationFailed);
      r.reply.Sent? ==> GetTopic(r.db.topics, id) == Sent(200, r.reply.value)
  {
    var r := UpdateTopic(db, id, name, validationFailed);
    if r.reply.Sent? {
      var k :| && 0 <= k < |db.topics| && db.topics[k].topicId == id
               && (forall j :: 0 <= j < k ==> db.topics[j].topicId != id)
               && r.reply.value == db.topics[k].(title := if name.Some? then name else db.topics[k].title)
               && r.db.topics == db.topics[k := r.reply.value];
      assert r.db.topics[k].topicId == id;
      var g := GetTopic(r.db.topics, id);
      var i :| 0 <= i < |r.db.topics| && r.db.topics[i] == g.value && forall j :: 0 <= j < i ==> r.db.topics[j].topicId != id;
    }
  }

  /** With unique keys, a deleted topic is no longer found. */
  lemma DeletedTopicIsGone(db: Db, id: int, a: Auth)
    requires Seqs.KeysUnique(db.topics, (t: Topic) => t.topicId)
    ensures
      var r := DeleteTopic(db, id, a);
      r.Some? && r.value.reply.Sent? ==> GetTopic(r.value.db.topics, id) == Failed(404, "Topic not found")
  {
    var r := DeleteTopic(db, id, a);
    if r.Some? && r.value.reply.Sent? {
      var i :| 0 <= i < |db.topics| && db.topics[i] == r.value.reply.value && r.value.db.topics == Seqs.RemoveAt(db.topics, i);
      Seqs.RemovedKeyGone(db.topics, (t: Topic) => t.topicId, i);
    }
  }
}

=== FILE: user_search.dfy ===
/** The two user search boxes: case-insensitive substring match on usernames, shown only for a non-empty query. */
module UserSearch {
  import opened Wrappers
  import opened Schema
  import opened Strings
  import Seqs

  /** `user.username.toLowerCase().includes(query.toLowerCase())`. */
  predicate Matches(u: User, query: string) {
    Contains(Lower(u.username), Lower(query))
  }

  /** `filteredUsers`, the same in both components: the matching users in fetched order. */
  function Search(users: seq<User>, query: string): (r: seq<User>)
    ensures forall i :: 0 <= i < |r| ==> r[i] in users && Matches(r[i], query)
    ensures forall i :: 0 <= i < |users| && Matches(users[i], query) ==> users[i] in r
    ensures Seqs.IsSubsequence(r, users)
  {
    Seqs.Filter(users, (u: User) => Matches(u, query))
  }

  /** The result list, rendered only while the query is non-empty. */
  function Results(users: seq<User>, query: string): (r: Option<seq<User>>)
    ensures r.None? <==> query == ""
    ensures r.Some? ==> r.value == Search(users, query)
  {
    if query == "" then None else Some(Search(users, query))
  }

  /** The empty query matches everyone, which is why the list is hidden then. */
  lemma EmptyQueryMatchesAll(users: seq<User>)
    ensures Search(users, "") == users
  {
    assert forall i :: 0 <= i < |users| ==> OccursAt(Lower(users[i].username), Lower(""), 0);
    Seqs.FilterAll(users, (u: User) => Matches(u, ""));
  }

  /** Case does not matter on either side. */
  lemma SearchIgnoresQueryCase(users: seq<User>, query: string)
    ensures Search(users, Lower(query)) == Search(users, query)
  {
    LowerIdempotent(query);
    Seqs.FilterPointwise(users, (u: User) => Matches(u, Lower(query)), (u: User) => Matches(u, query));
  }

  /** State of the chat search box after a click: the query and the user handed to `onUserForChatSelect`. */
  datatype Picked = Picked(query: string, selected: User)

  /** `handleUserClick`: the query becomes the clicked username and the user is handed on. */
  function HandleUserClick(u: User): (r: Picked)
    ensures r.selected == u
    ensures Matches(u, r.query)
  {
    ContainsSelf(Lower(u.username));
    Picked(u.username, u)
  }

  /** After a click the clicked user is still among the shown results. */
  lemma ClickedUserStaysListed(users: seq<User>, u: User)
    requires u in users
    ensures u.username != "" ==> Results(users, HandleUserClick(u).query).Some?
    ensures u in Search(users, HandleUserClick(u).query)
  {
    var k :| 0 <= k < |users| && users[k] == u;
    assert Matches(users[k], HandleUserClick(u).query);
  }
}

=== FILE: user_store.dfy ===
/** Lookups and single-slot updates on the user table, shared by the middlewares and the routes. */
module UserStore {
  import opened Wrappers
  import opened Schema
  import opened Tokens
  import Seqs

  /** `prisma.user.findFirst({ where: { token } })`: the first user whose stored refresh token is `token`. */
  function FindByToken(users: seq<User>, token: string): (r: Option<User>)
    ensures r.Some? ==> r.value in users && r.value.token == Some(token)
    ensures r.None? <==> forall i :: 0 <= i < |users| ==> users[i].token != Some(token)
    ensures r.Some? ==> exists i :: 0 <= i < |users| && users[i] == r.value && forall j :: 0 <= j < i ==> users[j].token != Some(token)
  {
    Seqs.FindFirst(users, (u: User) => u.token == Some(token))
  }

  /** `findUnique`/`findFirst` by username: the first user with that name. */
  function FindByUsername(users: seq<User>, name: string): (r: Option<User>)
    ensures r.Some? ==> r.value in users && r.value.username == name
    ensures r.None? <==> forall i :: 0 <= i < |users| ==> users[i].username != name
    ensures r.Some? ==> exists i :: 0 <= i < |users| && users[i] == r.value && forall j :: 0 <= j < i ==> users[j].username != name
  {
    Seqs.FindFirst(users, (u: User) => u.username == name)
  }

  /** `findUnique` by id. */
  function FindById(users: seq<User>, id: int): (r: Option<User>)
    ensures r.Some? ==> r.value in users && r.value.id == id
    ensures r.None? <==> forall i :: 0 <= i < |users| ==> users[i].id != id
    ensures r.Some? ==> exists i :: 0 <= i < |users| && users[i] == r.value && forall j :: 0 <= j < i ==> users[j].id != id
  {
    Seqs.FindFirst(users, (u: User) => u.id == id)
  }

  /** The id the next created user receives. */
  function NextUserId(users: seq<User>): (r: int)
    ensures forall i :: 0 <= i < |users| ==> users[i].id < r
  {
    Seqs.NextKey(users, (u: User) => u.id)
  }

  /** The claims signed for a user at login and renewal: `{ name: username, id, role }`. */
  function TokenData(u: User): (p: Payload)
    ensures p.name == u.username && p.id == Some(u.id) && p.role == u.role
  {
    Payload(u.username, Some(u.id), u.role)
  }

  /** No two users share an id, as the primary key guarantees. */
  ghost predicate IdsUnique(users: seq<User>) {
    forall i, j :: 0 <= i < j < |users| ==> users[i].id != users[j].id
  }

  /** No two users share a username. */
  ghost predicate UsernamesUnique(users: seq<User>) {
    forall i, j :: 0 <= i < j < |users| ==> users[i].username != users[j].username
  }

  /**
   * `prisma.user.update({ where: { username }, data: { token, tokenExpire } })`:
   * overwrites the refresh-token slot of the first user with that name; every
   * other row and every other column stay as they were.
   */
  function StoreRefreshSlot(users: seq<User>, name: string, token: string, expire: int): (r: Option<seq<User>>)
    ensures r.None? <==> FindByUsername(users, name).None?
    ensures r.Some? ==> |r.value| == |users|
    ensures r.Some? ==>
      exists k ::
        && 0 <= k < |users|
        && users[k] == FindByUsername(users, name).value
        && r.value[k] == users[k].(token := Some(token), tokenExpire := Some(expire))
        && forall j :: 0 <= j < |users| && j != k ==> r.value[j] == users[j]
  {
    match Seqs.FindIndex(users, (u: User) => u.username == name)
    case None => None
    case Some(k) =>
      var found := FindByUsername(users, name).value;
      assert exists i :: 0 <= i < |users| && users[i] == found && forall j :: 0 <= j < i ==> users[j].username != name;
      Some(users[k := users[k].(token := Some(token), tokenExpire := Some(expire))])
  }

  /** Two user tables that differ at most in their `tokenExpire` columns. */
  ghost predicate SameButExpiry(users: seq<User>, users': seq<User>) {
    && |users| == |users'|
    && forall i :: 0 <= i < |users| ==> users'[i] == users[i].(tokenExpire := users'[i].tokenExpire)
  }

  /** Lookups by token and by name find the same row (up to its expiry) in two such tables. */
  lemma LookupsIgnoreExpiry(users: seq<User>, users': seq<User>, token: string, name: string)
    requires SameButExpiry(users, users')
    ensures FindByToken(users', token).Some? == FindByToken(users, token).Some?
    ensures FindByToken(users', token).Some? ==>
      FindByToken(users', token).value == FindByToken(users, token).value.(tokenExpire := FindByToken(users', token).value.tokenExpire)
    ensures FindByUsername(users', name).Some? == FindByUsername(users, name).Some?
    ensures FindByUsername(users', name).Some? ==>
      FindByUsername(users', name).value == FindByUsername(users, name).value.(tokenExpire := FindByUsername(users', name).value.tokenExpire)
  {
    Seqs.FindIndexPointwise(users, users', (u: User) => u.token == Some(token), (u: User) => u.token == Some(token));
    Seqs.FindIndexPointwise(users, users', (u: User) => u.username == name, (u: User) => u.username == name);
  }
}

=== FILE: users_routes.dfy ===
/** The `/users` routes: lookup, self-service update, profile update by id, and the two deletes. */
module UsersRoutes {
  import opened Wrappers
  import opened Schema
  import opened Tokens
  import opened Http
  import opened Strings
  import opened UserStore
  import AuthenticationRoutes
  import Seqs

  /** The answer of `GET /users`: one user for a `username` query, otherwise the whole table. */
  datatype Listing = OneUser(user: User) | AllUsers(users: seq<User>)

  /** `GET /users?username=…`. */
  function GetUsers(users: seq<User>, username: Option<string>): (r: Reply<Listing>)
    ensures !Truthy(username) ==> r == Sent(200, AllUsers(users))
    ensures Truthy(username) ==> (r.Sent? <==> exists i :: 0 <= i < |users| && users[i].username == username.value)
    ensures Truthy(username) && r.Sent? ==> r.value.OneUser? && r.value.user in users && r.value.user.username == username.value
    ensures r.Failed? ==> r == Failed(404, "User not found")
  {
    if !Truthy(username) then Sent(200, AllUsers(users))
    else match FindByUsername(users, username.value)
      case None => Failed(404, "User not found")
      case Some(u) => Sent(200, OneUser(u))
  }

  /** The columns an update may write; `None` (an undefined value) leaves a column as it is. */
  datatype UserPatch = UserPatch(password: Option<string>, profileText: Option<string>, profileImage: Option<string>, profileBanner: Option<string>)

  function ApplyPatch(u: User, p: UserPatch): (v: User)
    ensures v.id == u.id && v.username == u.username && v.role == u.role
    ensures v.token == u.token && v.tokenExpire == u.tokenExpire
    ensures v.password == p.password.GetOr(u.password)
    ensures v.profileText == p.profileText.OrElse(u.profileText)
    ensures v.profileImage == p.profileImage.OrElse(u.profileImage)
    ensures v.profileBanner == p.profileBanner.OrElse(u.profileBanner)
  {
    u.(password := p.password.GetOr(u.password),
       profileText := p.profileText.OrElse(u.profileText),
       profileImage := p.profileImage.OrElse(u.profileImage),
       profileBanner := p.profileBanner.OrElse(u.profileBanner))
  }

  /** `update({ where: { id }, data })` on the first user with that id; `None` when there is none (the ORM throws). */
  function UpdateById(users: seq<User>, id: int, p: UserPatch): (r: Option<(seq<User>, User)>)
    ensures r.None? <==> forall i :: 0 <= i < |users| ==> users[i].id != id
    ensures r.Some? ==>
      && |r.value.0| == |users|
      && exists k ::
        && 0 <= k < |users|
        && users[k].id == id
        && (forall j :: 0 <= j < k ==> users[j].id != id)
        && r.value.1 == ApplyPatch(users[k], p)
        && r.value.0 == users[k := r.value.1]
  {
    match Seqs.FindIndex(users, (u: User) => u.id == id)
    case None => None
    case Some(k) =>
      var v := ApplyPatch(users[k], p);
      Some((users[k := v], v))
  }

  /** The request of `PUT /users/update`: body fields and the names of uploaded files. */
  datatype UpdateRequest = UpdateRequest(
    currentPassword: Option<string>,
    password: Option<string>,
    profileText: Option<string>,
    profileImage: Option<string>,
    profileBanner: Option<string>)

  /**
   * `PUT /users/update` for the authenticated `username`. A wrong current
   * password stops it; a missing one, or a comparison that throws, does not.
   * A new hash is computed only for a truthy `password`.
   */
  function UpdateCurrentUser(db: Db, username: string, req: UpdateRequest, bcrypt: Bcrypt): (r: Handled<User>)
    ensures r.db == db.(users := r.db.users)
    ensures FindByUsername(db.users, username).None? ==> r == Handled(db, Failed(400, "Cannot find user"))
    ensures r.reply.Failed? ==> r.db == db && r.reply.status == 400
    ensures r.reply == Failed(400, "Wrong username or password") <==>
      FindByUsername(db.users, username).Some? && Truthy(req.currentPassword)
      && bcrypt.compare(req.currentPassword.value, FindByUsername(db.users, username).value.password) == Some(false)
    ensures FindByUsername(db.users, username).Some? ==>
      (r.reply.Sent? <==>
        !(Truthy(req.currentPassword)
          && bcrypt.compare(req.currentPassword.value, FindByUsername(db.users, username).value.password) == Some(false)))
    ensures r.reply.Sent? ==>
      && r.reply.status == 200
      && FindByUsername(db.users, username).Some?
      && r.reply.value.id == FindByUsername(db.users, username).value.id
      && exists k ::
        && 0 <= k < |db.users|
        && db.users[k].id == r.reply.value.id
        && r.db.users == db.users[k := r.reply.value]
        && r.reply.value.username == db.users[k].username && r.reply.value.role == db.users[k].role
        && r.reply.value.token == db.users[k].token && r.reply.value.tokenExpire == db.users[k].tokenExpire
        && r.reply.value.password == (if Truthy(req.password) then bcrypt.hash(req.password.value) else db.users[k].password)
        && r.reply.value.profileText == req.profileText.OrElse(db.users[k].profileText)
        && r.reply.value.profileImage == req.profileImage.OrElse(db.users[k].profileImage)
        && r.reply.value.profileBanner == req.profileBanner.OrElse(db.users[k].profileBanner)
  {
    match FindByUsername(db.users, username)
    case None => Handled(db, Failed(400, "Cannot find user"))
    case Some(u) =>
      if Truthy(req.currentPassword) && bcrypt.compare(req.currentPassword.value, u.password) == Some(false) then
        Handled(db, Failed(400, "Wrong username or password"))
      else
        var hashed := if Truthy(req.password) then Some(bcrypt.hash(req.password.value)) else None;
        var patch := UserPatch(hashed, req.profileText, req.profileImage, req.profileBanner);
        match UpdateById(db.users, u.id, patch)
        case None => Handled(db, Failed(404, "User not found"))   // the user was just found by name: unreachable in a sequential run
        case Some((users', v)) => Handled(db.(users := users'), Sent(200, v))
  }

  /** Without a current password the password is replaced unchecked. */
  lemma PasswordChangesWithoutCheck(db: Db, username: string, req: UpdateRequest, bcrypt: Bcrypt)
    requires FindByUsername(db.users, username).Some?
    requires !Truthy(req.currentPassword) && Truthy(req.password)
    ensures UpdateCurrentUser(db, username, req, bcrypt).reply.Sent?
    ensures UpdateCurrentUser(db, username, req, bcrypt).reply.value.password == bcrypt.hash(req.password.value)
  {
    var u := FindByUsername(db.users, username).value;
    assert exists i :: 0 <= i < |db.users| && db.users[i] == u;
  }

  /** A comparison that throws is only logged: the update goes ahead. */
  lemma ThrowingCompareStillUpdates(db: Db, username: string, req: UpdateRequest, bcrypt: Bcrypt)
    requires FindByUsername(db.users, username).Some?
    requires Truthy(req.currentPassword)
    requires bcrypt.compare(req.currentPassword.value, FindByUsername(db.users, username).value.password).None?
    ensures UpdateCurrentUser(db, username, req, bcrypt).reply.Sent?
  {
    var u := FindByUsername(db.users, username).value;
    assert exists i :: 0 <= i < |db.users| && db.users[i] == u;
  }

  /** `PUT /users/:id`: profile text and images of the user in the path, with no authentication at all. */
  function UpdateProfile(db: Db, id: int, profileText: Option<string>, profileImage: Option<string>, profileBanner: Option<string>): (r: Handled<User>)
    ensures r.db == db.(users := r.db.users)
    ensures r.reply.Failed? <==> forall i :: 0 <= i < |db.users| ==> db.users[i].id != id
    ensures r.reply.Failed? ==> r == Handled(db, Failed(404, "User not found"))
    ensures r.reply.Sent? ==>
      && r.reply.status == 200
      && r.reply.value.id == id
      && exists k ::
        && 0 <= k < |db.users|
        && db.users[k].id == id
        && (forall j :: 0 <= j < k ==> db.users[j].id != id)
        && r.db.users == db.users[k := r.reply.value]
        && r.reply.value.username == db.users[k].username && r.reply.value.role == db.users[k].role
        && r.reply.value.password == db.users[k].password
        && r.reply.value.token == db.users[k].token && r.reply.value.tokenExpire == db.users[k].tokenExpire
        && r.reply.value.profileText == profileText.OrElse(db.users[k].profileText)
        && r.reply.value.profileImage == profileImage.OrElse(db.users[k].profileImage)
        && r.reply.value.profileBanner == profileBanner.OrElse(db.users[k].profileBanner)
  {
    match UpdateById(db.users, id, UserPatch(None, profileText, profileImage, profileBanner))
    case None => Handled(db, Failed(404, "User not found"))
    case Some((users', v)) => Handled(db.(users := users'), Sent(200, v))
  }

  /** With unique names, the profile written by `PUT /users/:id` is what a lookup by name then returns. */
  lemma UpdatedProfileIsListed(db: Db, id: int, profileText: Option<string>, profileImage: Option<string>, profileBanner: Option<string>)
    requires UsernamesUnique(db.users)
    ensures
      var r := UpdateProfile(db, id, profileText, profileImage, profileBanner);
      r.reply.Sent? && r.reply.value.username != "" ==>
        GetUsers(r.db.users, Some(r.reply.value.username)) == Sent(200, OneUser(r.reply.value))
  {
    var r := UpdateProfile(db, id, profileText, profileImage, profileBanner);
    if r.reply.Sent? && r.reply.value.username != "" {
      var v := r.reply.value;
      var k :| 0 <= k < |db.users| && db.users[k].id == id && r.db.users == db.users[k := v] && v.username == db.users[k].username;
      var found := GetUsers(r.db.users, Some(v.username));
      assert r.db.users[k].username == v.username;
      var i :| 0 <= i < |r.db.users| && r.db.users[i] == found.value.user
                && forall j :: 0 <= j < i ==> r.db.users[j].username != v.username;
    }
  }

  /** A user just registered is what `GET /users?username=` then returns. */
  lemma RegisteredUserIsListed(db: Db, username: Option<string>, password: Option<string>, bcrypt: Bcrypt)
    ensures
      var r := AuthenticationRoutes.Register(db, username, password, bcrypt);
      r.reply.Sent? ==> GetUsers(r.db.users, username) == Sent(200, OneUser(r.reply.value))
  {
    var r := AuthenticationRoutes.Register(db, username, password, bcrypt);
    if r.reply.Sent? {
      var found := GetUsers(r.db.users, username);
      var n := |db.users|;
      assert r.db.users[n] == r.reply.value;
      var i :| 0 <= i < |r.db.users| && r.db.users[i] == found.value.user
                && forall j :: 0 <= j < i ==> r.db.users[j].username != username.value;
    }
  }

  /** `DELETE /users/remove`: deletes exactly the authenticated user, by name. */
  function RemoveCurrentUser(db: Db, username: string): (r: Handled<User>)
    ensures r.db == db.(users := r.db.users)
    ensures r.reply.Failed? <==> forall i :: 0 <= i < |db.users| ==> db.users[i].username != username
    ensures r.reply.Failed? ==> r.db == db && r.reply.status == 404
    ensures r.reply.Sent? ==>
      && r.reply.value.username == username
      && |r.db.users| == |db.users| - 1
      && multiset(r.db.users) + multiset{r.reply.value} == multiset(db.users)
  {
    match Seqs.FindIndex(db.users, (u: User) => u.username == username)
    case None => Handled(db, Failed(404, "User not found"))
    case Some(k) => Handled(db.(users := Seqs.RemoveAt(db.users, k)), Sent(200, db.users[k]))
  }

  /** With unique names, a user removed by `DELETE /users/remove` is no longer found by name. */
  lemma RemovedUserNotListed(db: Db, username: string)
    requires UsernamesUnique(db.users) && username != ""
    ensures
      var r := RemoveCurrentUser(db, username);
      r.reply.Sent? ==> GetUsers(r.db.users, Some(username)) == Failed(404, "User not found")
  {
    var r := RemoveCurrentUser(db, username);
    if r.reply.Sent? {
      var k := Seqs.FindIndex(db.users, (u: User) => u.username == username).value;
      var rest := Seqs.RemoveAt(db.users, k);
      assert r.db.users == rest;
      forall j | 0 <= j < |rest|
        ensures rest[j].username != username
      {
        if j < k {
          assert rest[j] == db.users[j];
        } else {
          assert rest[j] == db.users[j + 1];
        }
      }
    }
  }

  /**
   * The key of `DELETE /users/:id`: `{ id: path, ...(admin ? {} : { id: req.id }) }`.
   * For anyone but an admin the spread overrides the path id with `req.id`.
   */
  function DeleteKey(pathId: int, a: Auth): (k: Option<int>)
    ensures IsAdmin(a) ==> k == Some(pathId)
    ensures !IsAdmin(a) ==> k == a.id
  {
    if IsAdmin(a) then Some(pathId) else a.id
  }

  /** `DELETE /users/:id`; `None` when the key is undefined (the route has no middleware, so `req.id` is unset). */
  function DeleteUserById(db: Db, pathId: int, a: Auth): (r: Option<Handled<User>>)
    ensures r.None? <==> DeleteKey(pathId, a).None?
    ensures r.Some? ==> r.value.db == db.(users := r.value.db.users)
    ensures r.Some? ==> (r.value.reply.Failed? <==> forall i :: 0 <= i < |db.users| ==> Some(db.users[i].id) != DeleteKey(pathId, a))
    ensures r.Some? && r.value.reply.Sent? ==>
      && Some(r.value.reply.value.id) == DeleteKey(pathId, a)
      && multiset(r.value.db.users) + multiset{r.value.reply.value} == multiset(db.users)
      && exists i :: 0 <= i < |db.users| && db.users[i] == r.value.reply.value && r.value.db.users == Seqs.RemoveAt(db.users, i)
    ensures r.Some? && r.value.reply.Failed? ==> r.value.db == db && r.value.reply.status == 404
  {
    match DeleteKey(pathId, a)
    case None => None
    case Some(key) =>
      match Seqs.FindIndex(db.users, (u: User) => u.id == key)
      case None => Some(Handled(db, Failed(404, "User not found")))
      case Some(k) => Some(Handled(db.(users := Seqs.RemoveAt(db.users, k)), Sent(200, db.users[k])))
  }

  /** For anyone but an admin the path parameter is discarded: every path id gives the same result. */
  lemma NonAdminDeleteIgnoresPath(db: Db, pathId: int, pathId': int, a: Auth)
    requires !IsAdmin(a)
    ensures DeleteUserById(db, pathId, a) == DeleteUserById(db, pathId', a)
  {
  }

  /** On the route as mounted (no middleware) the key is always undefined. */
  lemma UnauthenticatedDeleteHasNoKey(db: Db, pathId: int)
    ensures DeleteUserById(db, pathId, Unauthenticated).None?
  {
  }

  /** With unique names and ids, after `PUT /users` the name's listing is the updated user. */
  lemma UpdatedCurrentUserIsListed(db: Db, username: string, req: UpdateRequest, bcrypt: Bcrypt)
    requires UsernamesUnique(db.users) && IdsUnique(db.users) && username != ""
    ensures
      var r := UpdateCurrentUser(db, username, req, bcrypt);
      r.reply.Sent? ==> GetUsers(r.db.users, Some(username)) == Sent(200, OneUser(r.reply.value))
  {
    var r := UpdateCurrentUser(db, username, req, bcrypt);
    if r.reply.Sent? {
      var v := r.reply.value;
      var u := FindByUsername(db.users, username).value;
      var n :| 0 <= n < |db.users| && db.users[n] == u;
      var k :| && 0 <= k < |db.users| && db.users[k].id == v.id
               && r.db.users == db.users[k := v] && v.username == db.users[k].username;
      assert k == n;
      assert r.db.users[k].username == username;
      var found := GetUsers(r.db.users, Some(username));
      var i :| 0 <= i < |r.db.users| && r.db.users[i] == found.value.user
                && forall j :: 0 <= j < i ==> r.db.users[j].username != username;
    }
  }

  /** With unique ids, `DELETE /users/:id` leaves no user with the key, so the full listing no longer shows the deleted user. */
  lemma DeletedUserIsGone(db: Db, pathId: int, a: Auth)
    requires IdsUnique(db.users)
    ensures
      var r := DeleteUserById(db, pathId, a);
      r.Some? && r.value.reply.Sent? ==>
        && (forall i :: 0 <= i < |r.value.db.users| ==> Some(r.value.db.users[i].id) != DeleteKey(pathId, a))
        && GetUsers(r.value.db.users, None) == Sent(200, AllUsers(r.value.db.users))
        && r.value.reply.value !in r.value.db.users
  {
    var r := DeleteUserById(db, pathId, a);
    if r.Some? && r.value.reply.Sent? {
      var i :| 0 <= i < |db.users| && db.users[i] == r.value.reply.value && r.value.db.users == Seqs.RemoveAt(db.users, i);
      assert Seqs.KeysUnique(db.users, (u: User) => u.id);
      Seqs.RemovedKeyGone(db.users, (u: User) => u.id, i);
    }
  }
}

=== FILE: voting.dfy ===
/**
 * The up/down vote buttons of a post card: two flags, two counters started
 * from the post's stored counts, a displayed score, and a request that sends
 * the full pair of counts after every click.
 */
module Voting {
  import opened Wrappers
  import opened Schema
  import PostsRoutes

  /** `upVoted`, `downVoted`, `upVotesN`, `downVotesN`. */
  datatype VoteState = VoteState(upVoted: bool, downVoted: bool, upVotesN: int, downVotesN: int)

  /** A click's new state and the `(upvotes, downvotes)` body it sends to `PUT /posts/:id/vote`. */
  datatype Step = Step(state: VoteState, sent: (int, int))

  datatype Button = Up | Down

  /** Fresh component: nothing voted, counters taken from the props. */
  function Initial(upvotes: int, downvotes: int): (s: VoteState)
    ensures Consistent(upvotes, downvotes, s)
    ensures Score(s) == upvotes - downvotes
  {
    VoteState(false, false, upvotes, downvotes)
  }

  /** The number shown between the buttons. */
  function Score(s: VoteState): int {
    s.upVotesN - s.downVotesN
  }

  /** Each counter is its starting value plus one while its flag is set, and the two flags are never both set. */
  ghost predicate Consistent(upvotes: int, downvotes: int, s: VoteState) {
    && s.upVotesN == upvotes + (if s.upVoted then 1 else 0)
    && s.downVotesN == downvotes + (if s.downVoted then 1 else 0)
    && !(s.upVoted && s.downVoted)
  }

  /** `toggleUpVote`: flips the up flag, moves its counter with it, and sends the new pair. */
  function ToggleUp(s: VoteState): (r: Step)
    ensures r.state.upVoted != s.upVoted && r.state.downVoted == s.downVoted
    ensures Score(r.state) == Score(s) + (if r.state.upVoted then 1 else -1)
    ensures r.state.downVotesN == s.downVotesN
    ensures r.sent == (r.state.upVotesN, r.state.downVotesN)
  {
    var voted := !s.upVoted;
    var n := if voted then s.upVotesN + 1 else s.upVotesN - 1;
    Step(s.(upVoted := voted, upVotesN := n), (n, s.downVotesN))
  }

  /** `toggleDownVote`, the mirror image. */
  function ToggleDown(s: VoteState): (r: Step)
    ensures r.state.downVoted != s.downVoted && r.state.upVoted == s.upVoted
    ensures Score(r.state) == Score(s) - (if r.state.downVoted then 1 else -1)
    ensures r.state.upVotesN == s.upVotesN
    ensures r.sent == (r.state.upVotesN, r.state.downVotesN)
  {
    var voted := !s.downVoted;
    var n := if voted then s.downVotesN + 1 else s.downVotesN - 1;
    Step(s.(downVoted := voted, downVotesN := n), (s.upVotesN, n))
  }

  /** The up button is disabled while down-voted, and the down button while up-voted. */
  predicate Enabled(s: VoteState, b: Button) {
    match b
    case Up => !s.downVoted
    case Down => !s.upVoted
  }

  /** A click: nothing happens on a disabled button. */
  function Press(s: VoteState, b: Button): (r: Option<Step>)
    ensures r.None? <==> !Enabled(s, b)
  {
    if !Enabled(s, b) then None
    else match b
      case Up => Some(ToggleUp(s))
      case Down => Some(ToggleDown(s))
  }

  /** One enabled click keeps the counters consistent with the flags. */
  lemma PressPreservesConsistent(upvotes: int, downvotes: int, s: VoteState, b: Button)
    requires Consistent(upvotes, downvotes, s)
    ensures Press(s, b).Some? ==> Consistent(upvotes, downvotes, Press(s, b).value.state)
  {
  }

  /** The state after a series of clicks. */
  function Run(s: VoteState, clicks: seq<Button>): (r: VoteState)
    decreases |clicks|
  {
    if |clicks| == 0 then s
    else
      var next := match Press(s, clicks[0]) case None => s case Some(step) => step.state;
      Run(next, clicks[1..])
  }

  /** Whatever the clicks, each counter is its prop plus its flag, and never both flags are set. */
  lemma {:induction false} RunConsistent(upvotes: int, downvotes: int, s: VoteState, clicks: seq<Button>)
    requires Consistent(upvotes, downvotes, s)
    ensures Consistent(upvotes, downvotes, Run(s, clicks))
    decreases |clicks|
  {
    if |clicks| > 0 {
      PressPreservesConsistent(upvotes, downvotes, s, clicks[0]);
      var next := match Press(s, clicks[0]) case None => s case Some(step) => step.state;
      RunConsistent(upvotes, downvotes, next, clicks[1..]);
    }
  }

  /** From a fresh component, the score stays within one vote of the initial score. */
  lemma RunScoreWithinOne(upvotes: int, downvotes: int, clicks: seq<Button>)
    ensures var s := Run(Initial(upvotes, downvotes), clicks);
      upvotes - downvotes - 1 <= Score(s) <= upvotes - downvotes + 1
  {
    RunConsistent(upvotes, downvotes, Initial(upvotes, downvotes), clicks);
  }

  /** Clicking the same button twice restores the flag and the counter. */
  lemma ToggleTwiceRestores(s: VoteState)
    ensures ToggleUp(ToggleUp(s).state).state == s
    ensures ToggleDown(ToggleDown(s).state).state == s
  {
  }

  /** After a click reaches the server, the stored counters equal the displayed ones. */
  lemma ClickSyncsStore(db: Db, postId: int, s: VoteState, b: Button)
    requires Press(s, b).Some?
    requires exists k :: 0 <= k < |db.posts| && db.posts[k].postId == postId
    ensures
      var step := Press(s, b).value;
      var r := PostsRoutes.SetVotes(db, postId, Some(step.sent.0), Some(step.sent.1));
      && r.reply.Sent?
      && r.reply.value.upvotes == step.state.upVotesN
      && r.reply.value.downvotes == step.state.downVotesN
  {
  }

  /**
   * Two viewers who loaded the same counts and each up-vote leave one vote
   * stored, not two: each request carries an absolute count.
   */
  lemma ConcurrentUpVotesLoseOne(db: Db, postId: int, k: nat)
    requires k < |db.posts| && db.posts[k].postId == postId
    ensures
      var p := db.posts[k];
      var first := ToggleUp(Initial(p.upvotes, p.downvotes));
      var second := ToggleUp(Initial(p.upvotes, p.downvotes));
      var afterFirst := PostsRoutes.SetVotes(db, postId, Some(first.sent.0), Some(first.sent.1)).db;
      var afterBoth := PostsRoutes.SetVotes(afterFirst, postId, Some(second.sent.0), Some(second.sent.1));
      afterBoth.reply.Sent? && afterBoth.reply.value.upvotes == p.upvotes + 1
  {
    var p := db.posts[k];
    var first := ToggleUp(Initial(p.upvotes, p.downvotes));
    var r := PostsRoutes.SetVotes(db, postId, Some(first.sent.0), Some(first.sent.1));
    var j :| 0 <= j < |db.posts| && db.posts[j].postId == postId
      && r.reply.value == db.posts[j].(upvotes := first.sent.0, downvotes := first.sent.1)
      && r.db.posts == db.posts[j := r.reply.value];
    assert r.db.posts[j].postId == postId;
  }
}

=== FILE: wrappers.dfy ===
/** Optional values: a JavaScript `undefined`/`null` is `None`. */
module Wrappers {

  datatype Option<+T> = None | Some(value: T) {

    /** Returns the wrapped value, or `default` when there is none. */
    function GetOr(default: T): T {
      match this
      case Some(v) => v
      case None => default
    }

    /** This value when there is one, otherwise `other`: an undefined update field keeps the stored value. */
    function OrElse(other: Option<T>): Option<T> {
      if Some? then this else other
    }
  }
}
